=== FILE: README.md ===
# KnowShare client: a Dafny model

KnowShare is a knowledge-sharing site: readers browse articles by category, signed-in users post,
edit, delete, like and comment on them. This project models the React client's decision logic
in Dafny and proves properties of it:

- the session bridge (`AuthProvider`), which turns identity-provider notifications into the
  `currentUser` / `jwtToken` pair and keeps the backend token in `localStorage`;
- the shared HTTP client and its interceptor, which attaches the stored token as a bearer credential;
- the form checks and handlers of the Login, Register, Post Article and Edit Article pages;
- the comma-separated tag text of the article forms, and its two parsers;
- the list operations of the All Articles, Home and My Articles pages: category extraction and
  filtering, the newest-six selection (an in-place sort on an array), excerpts, deletion by id;
- the like/comment state of the Article Details page and the choice of what it renders;
- the single-open toggles (FAQ list, expanded article card), the Top Contributors panel, and the
  app shell's layout rule and `reload_done` flag.

One Dafny module per source file (`AuthContext`, `Api`, `LoginPage`, `RegisterPage`,
`PostArticle`, `EditArticle`, `MyArticles`, `AllArticles`, `Home`, `ArticleDetails`, `App`,
`FaqSection`, `TopContributors`), plus shared modules: `Js` (JavaScript's `trim`, `split`,
`join`, truthiness of optional strings), `WebStorage` (the `localStorage`/`sessionStorage` map),
`Articles` (the article record, `filter` and distinct values), `Tags` (tag text) and `SingleOpen`
(the `open === x ? null : x` rule). Page state that React keeps in `useState` is a class whose
fields the handler methods update; network, identity-provider and dialog results are inputs to
those methods. Strings are `seq<char>`.

## Model

| member | source | states |
|---|---|---|
| AuthContext.LoginCheck | src/context/AuthContext.jsx:69-71 | `login` refuses exactly when the email or the password is empty, with "Email and password are required" and no provider code |
| AuthContext.RegisterCheck | src/context/AuthContext.jsx:80-85 | `register` passes its checks exactly when the email is non-empty and the password has at least 6 characters; an empty field gives the required-fields message, a short password the length message |
| AuthContext.Login | src/context/AuthContext.jsx:68-73 | the provider is reached exactly when both fields are non-empty, and its answer is passed through unchanged |
| AuthContext.GetToken | src/context/AuthContext.jsx:62-66 | `null` exactly when no provider user is signed in; otherwise the provider's ID-token result |
| AuthContext.SessionUser | src/context/AuthContext.jsx:39-44 | the stored user has the provider's uid, email and photo; its display name is always present, the provider's when non-empty and `''` otherwise |
| AuthContext.SessionBridge.RendersChildren | src/context/AuthContext.jsx:120 | the children are rendered exactly once the session has left the unresolved phase |
| AuthContext.SessionBridge.CurrentPhase | src/context/AuthContext.jsx:19-22 | unresolved exactly while loading; signed in exactly when loading is over and a user is present |
| AuthContext.SessionBridge.Agreement | src/context/AuthContext.jsx:36-57 | the session invariant: a user exactly when a token, the token the stored one, hence a user exactly when the storage holds a token |
| AuthContext.SessionBridge.constructor | src/context/AuthContext.jsx:20-22 | the bridge starts with no user, no token and loading, so the children are not rendered |
| AuthContext.SessionBridge.OnSignedIn | src/context/AuthContext.jsx:25-57 | a successful ID-token fetch and exchange sets the token, stores it under `jwtToken` and sets the user (display name defaulting to `''`); any failure clears user, token and stored key; either way loading ends and user, token and stored key agree; a user is signed in with a stored token that is not truthy exactly when the backend answered with an empty token |
| AuthContext.SessionBridge.OnSignedOut | src/context/AuthContext.jsx:51-56 | a signed-out notification clears user, token and stored key and ends loading |
| AuthContext.SessionBridge.Register | src/context/AuthContext.jsx:79-104 | refused checks leave the user alone; a created account sets `currentUser` (with `photoURL`) but not the token, so from a signed-out session user and token disagree |
| Api.Client | src/api/api.js:3-6 | the base URL is the build variable when it is non-empty, the fixed fallback otherwise; credentials are always sent |
| Api.Intercept | src/api/api.js:8-14 | a non-empty stored `jwtToken` sets `Authorization: Bearer <token>` and nothing else; without one the headers are unchanged; the same configuration is returned |
| WebStorage.Storage.GetItem | src/api/api.js:9 | `getItem` gives the stored string exactly when the key is present, `null` otherwise |
| WebStorage.Storage.SetItem | src/context/AuthContext.jsx:37 | `setItem` stores the value under the key and changes no other key |
| WebStorage.Storage.RemoveItem | src/context/AuthContext.jsx:49 | `removeItem` drops the key and changes no other key |
| RegisterPage.ValidatePassword | src/pages/Register.jsx:14-17 | the password regular expression, read with its lookaheads, holds exactly for strings of at least 6 characters with an ASCII lower-case and an ASCII upper-case letter and no line terminator |
| RegisterPage.HintExamples | src/pages/Register.jsx:94 | `Abcdef` satisfies the rule the form's hint states, `abc12` does not |
| RegisterPage.RegisterGuard | src/pages/Register.jsx:22-33 | checks run name, email, password in that order; the result is empty exactly when all three pass, otherwise the first failing message |
| RegisterPage.GuardImpliesRegisterCheck | src/pages/Register.jsx:30-36 | whatever passes the page's checks passes `register`'s own checks |
| RegisterPage.HandleSubmit | src/pages/Register.jsx:19-56 | `register` is called exactly when the page checks pass; success sets the user and `reload_done`, failure shows "Registration failed: " and the message and sets nothing |
| LoginPage.FriendlyErrorMessage | src/pages/Login.jsx:16-31 | the message is never empty; the five known codes get their own messages, every other code (or none) the generic one |
| LoginPage.FriendlyMessagesDistinct | src/pages/Login.jsx:17-27 | the five known codes give five different messages |
| LoginPage.RedirectTarget | src/pages/Login.jsx:14 | the `from` path when it is non-empty, `/` otherwise |
| LoginPage.LoginGuard | src/pages/Login.jsx:36-43 | a blank email is reported first, then a blank password; empty exactly when both are non-blank |
| LoginPage.HandleSubmit | src/pages/Login.jsx:33-68 | `login` is called exactly when the page checks pass; only a successful sign-in sets `reload_done` to `true`; a failure shows the friendly message for the error code |
| LoginPage.HandleGoogleLogin | src/pages/Login.jsx:70-91 | a successful popup sign-in sets `reload_done`; a failure shows the friendly message, never the raw error text |
| PostArticle.ScreenOf | src/pages/PostArticle.jsx:18-24 | without a user the page shows "Please login to post an article." instead of the form; with one, the form with its six category choices |
| PostArticle.AuthorOf | src/pages/PostArticle.jsx:42-45 | the author's email is the user's; the display name is the user's when non-empty, `Anonymous` otherwise |
| PostArticle.Submit | src/pages/PostArticle.jsx:26-56 | refused with "Title and content are required." exactly when title or content is blank; otherwise the article carries the form fields, the split tags (`[]` for empty text, one tag per comma plus one otherwise) and the author, and the page goes to `/my-articles` exactly when the post succeeded |
| EditArticle.TagText | src/pages/EditArticle.jsx:38 | the tag text is the tags joined with `, `, or `''` when the article has none |
| EditArticle.MayEdit | src/pages/EditArticle.jsx:29 | editing is allowed exactly when the article's `author_email` is strictly equal to the user's email: never when it is missing, with `null` only for a user without an email, with a text only for the user holding that text |
| EditArticle.LoadSaveRoundTrip | src/pages/EditArticle.jsx:38-60 | loading plain tags into the form and saving sends the same list back; missing tags are saved as `[]` |
| EditArticle.EditArticleForm.constructor | src/pages/EditArticle.jsx:12-15 | the form starts empty |
| EditArticle.EditArticleForm.FetchArticle | src/pages/EditArticle.jsx:17-51 | without a user: `/login` and the login message, nothing fetched; failed request, missing article or another author's article: `/` with the matching message and the form untouched; otherwise the form holds the article's title, content, category and tag text |
| EditArticle.EditArticleForm.Update | src/pages/EditArticle.jsx:56-61 | the update carries the form's fields and the tag text split as `Tags.SplitTags` does: `[]` for empty text, otherwise one trimmed piece per comma plus one, each at its place |
| EditArticle.EditArticleForm.HandleSubmit | src/pages/EditArticle.jsx:53-68 | the update is sent; success shows "Article updated!" and goes to `/my-articles`, failure shows "Failed to update article" and stays |
| MyArticles.Refetched | src/pages/MyArticles.jsx:24-32 | an array reply becomes the list, any other reply `[]`, a failed request keeps the list |
| MyArticles.RemoveById | src/pages/MyArticles.jsx:46 | the list without the deleted id: a subsequence of the old list that keeps every other article as often as before and none with that id |
| MyArticles.FormOf | src/pages/MyArticles.jsx:57-65 | the modal copies title and content; category defaults to `''`; tags are joined with `, ` or `''` when missing |
| MyArticles.UpdateOf | src/pages/MyArticles.jsx:79-82 | the update carries the form's fields and the tag text parsed as `Tags.ParseTagList` does: the non-empty trimmed pieces in order, each plain |
| MyArticles.EditRoundTrip | src/pages/MyArticles.jsx:57-84 | opening the modal and saving unchanged sends the article's own plain tags back (`[]` when missing) |
| Tags.FormatTags | src/pages/MyArticles.jsx:63 | no tags give `''`, one tag is the text itself, and tags without commas are separated by exactly one comma each |
| Tags.ParseTagList | src/pages/MyArticles.jsx:81 | the modal's parser returns the non-empty trimmed comma-separated pieces, in their order and each as often as it occurs, and nothing else; every one is non-empty, trimmed and comma-free |
| Tags.SplitTags | src/pages/PostArticle.jsx:39 | empty text gives no tags; other text one tag per comma plus one, empty pieces kept, each the trimmed piece at the same place |
| MyArticles.MyArticlesPage.constructor | src/pages/MyArticles.jsx:10-14 | empty list, loading, nothing expanded, no modal |
| MyArticles.MyArticlesPage.FetchMyArticles | src/pages/MyArticles.jsx:17-33 | without a user the list is emptied and nothing is requested; with one the list follows the reply and a failure shows "Failed to load your articles."; loading ends |
| MyArticles.MyArticlesPage.ToggleExpand | src/pages/MyArticles.jsx:39-41 | the card closes exactly when it was the expanded one, otherwise it becomes the only expanded card |
| MyArticles.MyArticlesPage.HandleDelete | src/pages/MyArticles.jsx:43-55 | nothing happens unless confirmed; then the article leaves the list before the request, its card is collapsed, and a failed delete re-fetches the list |
| MyArticles.MyArticlesPage.OpenEditModal | src/pages/MyArticles.jsx:57-65 | the modal edits the article with its form |
| MyArticles.MyArticlesPage.CloseEditModal | src/pages/MyArticles.jsx:67-74 | the modal closes and the form is reset |
| MyArticles.MyArticlesPage.HandleEditSubmit | src/pages/MyArticles.jsx:76-97 | with an article being edited its id and parsed form are sent; success closes the modal, failure keeps it; with none, the failure toast and no request |
| Tags.FormatParseRoundTrip | src/pages/MyArticles.jsx:63-81 | joining plain tags with `, ` and parsing the text back gives the same list |
| Tags.FormatSplitRoundTrip | src/pages/EditArticle.jsx:38-60 | joining plain tags with `, ` and splitting the text back, keeping empty pieces, gives the same list |
| Tags.EmptyPieceExample | src/pages/PostArticle.jsx:39 | `a,,b` keeps an empty middle tag when posting, while the My Articles parser drops it |
| Articles.Keep | src/pages/MyArticles.jsx:46 | `filter` is never longer than its input and keeps only elements that pass |
| Articles.KeepProps | src/pages/MyArticles.jsx:46 | `filter` keeps order, keeps each passing element as often as it occurs and drops every failing one |
| Articles.Distinct | src/pages/AllArticles.jsx:26 | `Array.from(new Set(xs))` is no longer than `xs`, holds only values of `xs`, none twice |
| Articles.DistinctProps | src/pages/AllArticles.jsx:26 | `Array.from(new Set(xs))` holds every value of `xs` once, nothing else, in order of first appearance |
| AllArticles.TruthyCategories | src/pages/AllArticles.jsx:26 | at most one category per article, none empty |
| AllArticles.TruthyCategoriesMembers | src/pages/AllArticles.jsx:26 | the truthy categories are exactly the non-empty categories of the list |
| AllArticles.Categories | src/pages/AllArticles.jsx:26-27 | the category bar has at most one entry per article, none empty, none twice |
| AllArticles.CategoriesProps | src/pages/AllArticles.jsx:26 | the category bar holds each non-empty category of the list exactly once, nothing else, in order of first appearance |
| AllArticles.FilterByCategory | src/pages/AllArticles.jsx:30 | the filtered list is the order-preserving subsequence of exactly the articles of that category |
| AllArticles.Shown | src/pages/AllArticles.jsx:29-31 | `''` shows the whole list; a category shows an order-preserving part of it holding only that category's articles |
| AllArticles.ShownWithinBar | src/pages/AllArticles.jsx:26-32 | a selected category with articles is on the bar; one not on the bar shows nothing |
| AllArticles.CardExcerpt | src/pages/AllArticles.jsx:102 | a card shows the first 150 characters followed by `...`, the dots added even to short content |
| AllArticles.SelectedCategory | src/pages/AllArticles.jsx:41 | the `category` parameter when non-empty, `''` otherwise |
| AllArticles.CategoryPath | src/pages/AllArticles.jsx:49-51 | `''` leads to `/all-articles`, any other category to `/all-articles?category=` and its encoding |
| AllArticles.SearchOf | src/pages/AllArticles.jsx:8 | the search of a path is empty exactly when the path has no `?`, and otherwise a tail of the path that starts with `?` |
| AllArticles.SearchFromFirstMark | src/pages/AllArticles.jsx:8 | the search starts at the first `?` of the path |
| AllArticles.SearchSkips | src/pages/AllArticles.jsx:8 | a leading part without `?` does not change the search |
| AllArticles.BeforeAfter | src/pages/AllArticles.jsx:7-9 | a pair splits at its first `=` into a name without `=` and the value; a pair without `=` is all name |
| AllArticles.Params | src/pages/AllArticles.jsx:7-9 | the pairs of a search are non-empty and hold no `&` |
| AllArticles.ParamGet | src/pages/AllArticles.jsx:41 | `get(key)` is null exactly when no pair's decoded name is the key, and otherwise the decoded value of the first pair that has it |
| AllArticles.QueryOf | src/pages/AllArticles.jsx:7-9 | the `category` parameter is found in any position of the query, the first one winning, and is absent exactly when no pair is named `category` |
| AllArticles.QueryBehindOtherPair | src/pages/AllArticles.jsx:7-9 | `?sort=new&category=x`: a category pair behind another pair is read all the same |
| AllArticles.QueryReadsBack | src/pages/AllArticles.jsx:41-50 | the path of a category click reads back as the decoded encoding |
| AllArticles.PlainListHasNoCategory | src/pages/AllArticles.jsx:41-50 | the plain `/all-articles` path carries no category |
| AllArticles.ClickSelects | src/pages/AllArticles.jsx:41-50 | clicking a category, `''` included, selects that category, whenever decoding undoes encoding and the encoding holds no `&` |
| AllArticles.AllArticlesPage.constructor | src/pages/AllArticles.jsx:15-18 | empty list and bar, loading, no selection |
| AllArticles.AllArticlesPage.SelectFromQuery | src/pages/AllArticles.jsx:40-43 | the selection becomes the `category` parameter of the location's search, or `''` |
| AllArticles.AllArticlesPage.FetchArticles | src/pages/AllArticles.jsx:20-38 | the bar comes from the unfiltered reply; the list is the reply for `''` and its category subsequence otherwise; a failure keeps both and shows "Failed to load articles"; loading ends |
| Home.SortNewestFirst | src/pages/Home.jsx:14-15 | the reply array is sorted in place, newest first, as a permutation of its old contents |
| Home.SinkNewest | src/pages/Home.jsx:15 | one insertion step extends the sorted prefix by one element, as a permutation |
| Home.PrefixIsNewest | src/pages/Home.jsx:14-16 | cutting a newest-first list leaves nothing after the cut newer than anything before it |
| Home.Excerpt | src/pages/Home.jsx:56-58 | content of at most 100 characters is shown whole; longer content as its first 100 characters and `...` |
| Home.CategoryLink | src/pages/Home.jsx:74 | a chip links to `/all-articles?category=` and the encoded category |
| Home.CategoryLinkSelects | src/pages/Home.jsx:74 | a chip leads where the All Articles bar leads and selects its category, whenever decoding undoes encoding and the encoding holds no `&` |
| Home.HomePage.constructor | src/pages/Home.jsx:7-8 | nothing featured, no categories |
| Home.HomePage.FetchData | src/pages/Home.jsx:10-24 | at most six articles are featured, newest first, taken from the reply, none older than any left out; the categories follow their own reply; a failed article request changes nothing |
| ArticleDetails.Loaded | src/pages/ArticleDetails.jsx:33-36 | the article is the reply's `article` field or the body; the count defaults to 0 and the flag to false |
| ArticleDetails.LikeGateOf | src/pages/ArticleDetails.jsx:97-108 | a like proceeds exactly with a user, a non-empty token and no like in flight; otherwise the first failing check |
| ArticleDetails.AfterLike | src/pages/ArticleDetails.jsx:112-132 | the flag flips exactly when the request succeeded; a failure keeps the count; the likes of other readers never change |
| ArticleDetails.AfterLikeMoves | src/pages/ArticleDetails.jsx:112-128 | a successful like adds one and sets the flag, a successful unlike removes one and clears it, a failure changes nothing |
| ArticleDetails.AfterLikeKeepsOthers | src/pages/ArticleDetails.jsx:112-128 | every like or unlike leaves the count of other readers' likes unchanged |
| ArticleDetails.ToggleTwiceRestores | src/pages/ArticleDetails.jsx:112-128 | two successful toggles restore count and flag |
| ArticleDetails.CommentGuard | src/pages/ArticleDetails.jsx:66-79 | a comment is posted exactly with a user, non-blank text and a token; otherwise the first failing message |
| ArticleDetails.ScreenAsWritten | src/pages/ArticleDetails.jsx:137-146 | the render crashes exactly when loading is over, there is no article and there is a user |
| ArticleDetails.ScreenAsWrittenCrashes | src/pages/ArticleDetails.jsx:140-146 | a signed-in reader whose article did not load reaches `article.title` on null |
| ArticleDetails.ScreenOf | src/pages/ArticleDetails.jsx:137-146 | the corrected render never crashes, shows the article exactly when loaded and redirects to login exactly as before |
| ArticleDetails.ArticleView.constructor | src/pages/ArticleDetails.jsx:12-18 | no article, no comments, zero likes, loading |
| ArticleDetails.ArticleView.Load | src/pages/ArticleDetails.jsx:22-50 | a loaded article sets article, count and flag and then fetches the comments; a failure keeps the state and shows the load message; loading ends |
| ArticleDetails.ArticleView.FetchComments | src/pages/ArticleDetails.jsx:53-61 | the comments follow the reply; a failure keeps them and shows "Failed to load comments" |
| ArticleDetails.ArticleView.HandleLike | src/pages/ArticleDetails.jsx:97-135 | past the checks the request matching the flag is sent, count and flag move as a like or unlike does, a failure shows its text, and the in-flight flag ends down |
| ArticleDetails.ArticleView.HandleCommentSubmit | src/pages/ArticleDetails.jsx:63-95 | past the checks the comment is posted; success clears the input and refreshes the comments, failure keeps everything |
| App.AsWrittenHidesRoutedPages | src/App.jsx:63-81 | the shell as written hides Navbar and Footer on `/edit-article/<id>` and `/profile`, which the router renders, and treats `/edit-article/` as known |
| App.RouterRendersPage | src/App.jsx:34-46 | the sign-in pages and `/profile` are routed; the bare `/article/` and `/edit-article/` go to the error page; every routed path starts with `/` |
| App.IsKnownRoute | src/App.jsx:77-79 | the corrected `isKnownRoute` knows every path the shell as written knows, plus every `/edit-article/` path and `/profile`, and nothing else |
| App.IsKnownRouteAsWritten | src/App.jsx:64-79 | as written, among the `/edit-article/` paths only the bare prefix is known, and `/profile` is unknown |
| App.HideLayoutAsWritten | src/App.jsx:81 | as written, article pages keep the layout, while every `/edit-article/<id>` path and `/profile` lose it |
| App.HideLayout | src/App.jsx:63-81 | the corrected rule hides the layout on a page the router renders exactly when it is `/login` or `/register`, and agrees with the shell as written away from the Edit Article paths and the profile page |
| App.RoutedPagesKnown | src/App.jsx:31-81 | under the corrected rule every path spelled exactly as a route is known and shows the layout unless it is a sign-in page |
| App.CorrectionAgreesElsewhere | src/App.jsx:64-81 | the correction changes nothing outside the Edit Article paths and the profile page |
| App.ConsumeReloadFlag | src/App.jsx:55-61 | a truthy `reload_done` is removed and the app goes to `/`; otherwise nothing changes |
| SingleOpen.Toggle | src/components/FaqSection.jsx:30-32 | a click closes the item exactly when it is the open one and opens it otherwise |
| SingleOpen.ToggleTwice | src/components/FaqSection.jsx:30-32 | two clicks on the same item restore the state when nothing else was open |
| SingleOpen.ToggleTwiceFromOther | src/components/FaqSection.jsx:31 | with another item open, two clicks on an item leave nothing open |
| SingleOpen.OpeningClosesOther | src/components/FaqSection.jsx:31 | opening an item while another is open closes the other |
| FaqSection.FaqList.constructor | src/components/FaqSection.jsx:28 | initially no answer is open |
| FaqSection.FaqList.ToggleIndex | src/components/FaqSection.jsx:30-32 | the state follows the single-open rule and only a listed question can be open |
| TopContributors.CommentWord | src/components/TopContributors.jsx:41 | the label is `comment` exactly when the count is 1 and `comments` otherwise |
| TopContributors.RowsFrom | src/components/TopContributors.jsx:30-41 | one entry per contributor, ranks consecutive from the first rank |
| TopContributors.Render | src/components/TopContributors.jsx:26-41 | an empty list shows "No contributors yet."; otherwise the first six contributors in order, ranked from 1 |
| TopContributors.Panel.constructor | src/components/TopContributors.jsx:6 | the panel starts with no contributors |
| TopContributors.Panel.Fetch | src/components/TopContributors.jsx:8-19 | the list follows the reply; a failed request keeps it |

## Left out

- Network, identity-provider and dialog calls are not modelled; their outcomes (`Outcome`, `Option` replies, `ok` flags, error texts) are inputs of the methods that await them.
- `loginWithGoogle` and `logout` pass straight through to the provider; their effects arrive as the popup outcome of `LoginPage.HandleGoogleLogin` and as the notification of `AuthContext.SessionBridge.OnSignedOut`.
- Asynchronous interleaving is not modelled: overlapping handlers, React state batching, stale closures, the 300 ms modal timers and `window.location.reload`. Each handler runs to completion on the state it started from.
- Success dialogs (their welcome texts), console logging, the success/error kind of a toast and all markup outside the decisions modelled are left out.
- Strings are sequences of code points; JavaScript's `.length` and `slice` count UTF-16 units, so lengths differ for characters outside the Basic Multilingual Plane.
- `encodeURIComponent` and the query-string decoding are function parameters; the model does not define them.
- `createdAt` is an integer timestamp; date parsing, invalid dates (which make the sort comparator inconsistent) and `toLocaleDateString` are not modelled. The Post Article date default comes from the clock and is an input.
- Home.SortNewestFirst: does not state that articles with equal timestamps keep their order, which the stable `Array.prototype.sort` guarantees.
- AuthContext.SessionBridge.OnSignedIn: a backend reply without a `token` field, which the source stores as the text `undefined`, is not modelled; `exchange` is either a token or a failed request.
- AuthContext.SessionBridge.Agreement: an empty backend token counts as present, so a session holding one satisfies the invariant although the interceptor sends no bearer and the Article Details page reports the token missing; `OnSignedIn` states exactly when that happens.
- App.RoutedPagesKnown: the router is matched exactly, case-sensitively and without a trailing slash; React Router also renders `/About` or `/about/` as the About page, where both layout rules hide the Navbar and Footer.
- AllArticles.QueryOf: the query's percent-decoding (including `+` as a space) is a parameter; a `#` fragment in a navigated path is not split off, which the category links never produce because `encodeURIComponent` escapes `#`.
- RegisterPage.HandleSubmit: the "User not created" branch is not modelled, because a resolved account creation always carries a user here.
- LoginPage.RedirectTarget: the page computes `from` but never uses it, since a sign-in reloads the page; it is modelled as a value only.
- ArticleDetails.ArticleView.Load: the explicit bearer header on the article request is not modelled (the interceptor's is, in `Api.Intercept`); the `hasShownToast` guard is reset on every render, so the failure toast is always shown.
- SingleOpen.ToggleTwice: "toggling twice restores the prior state" holds only when nothing or the same item was open; `SingleOpen.ToggleTwiceFromOther` states the other case.
- The FAQ question and answer texts, article thumbnails, author photos and contributor images are display only and not modelled.
- The context components (Navbar, Footer, the profile page, the private route) are not part of this model.

## Findings

| source | as written | input that shows it | evidently intended | confidence | as-written member | corrected member |
|---|---|---|---|---|---|---|
| src/pages/ArticleDetails.jsx:137-146 | after loading, only "no article and no user" is handled; with a user the page reads `article.title` on `null` | a signed-in reader whose `GET /articles/:id` fails (loading over, `article` null, `currentUser` set) | an error or not-found screen instead of a `TypeError` | high, not executed | ArticleDetails.ScreenAsWrittenCrashes | ArticleDetails.ScreenOf |
| src/App.jsx:63-81 | `'/edit-article/'` is compared exactly and `'/profile'` is not listed, so those routed pages count as unknown | path `/edit-article/42` or `/profile`: Navbar and Footer hidden | the layout shown on every routed page except login and register, `/edit-article/` matched as a prefix like `/article/` | medium, not executed | App.AsWrittenHidesRoutedPages | App.HideLayout |

=== FILE: all_articles.dfy ===
/** The All Articles page: the category bar taken from the whole list, the list narrowed to the
    selected category, the selection read from the query string, and the category links. */
module AllArticles {
  import opened Js
  import opened Articles

  const LoadFailed := "Failed to load articles"
  const ListPath := "/all-articles"

  /** `xs.map(a => a.category).filter(Boolean)`: at most one category per article, none empty. */
  function TruthyCategories(xs: seq<Article>): (cs: seq<string>)
    ensures |cs| <= |xs|
    ensures forall i :: 0 <= i < |cs| ==> cs[i] != ""
  {
    if xs == [] then []
    else (if Truthy(xs[0].category) then [xs[0].category.value] else []) + TruthyCategories(xs[1..])
  }

  lemma {:induction false} TruthyCategoriesMembers(xs: seq<Article>)
    ensures forall c :: c in TruthyCategories(xs) <==> c != "" && exists i :: 0 <= i < |xs| && xs[i].category == Some(c)
  {
    if xs != [] {
      TruthyCategoriesMembers(xs[1..]);
      forall c ensures c in TruthyCategories(xs) <==> c != "" && exists i :: 0 <= i < |xs| && xs[i].category == Some(c) {
        if c != "" && (exists i :: 0 <= i < |xs| && xs[i].category == Some(c)) {
          var i :| 0 <= i < |xs| && xs[i].category == Some(c);
          if i > 0 {
            assert xs[1..][i - 1].category == Some(c);
          }
        }
        if c in TruthyCategories(xs[1..]) {
          var i :| 0 <= i < |xs[1..]| && xs[1..][i].category == Some(c);
          assert xs[i + 1].category == Some(c);
        }
      }
    }
  }

  /** `Array.from(new Set(xs.map(a => a.category).filter(Boolean)))`: at most one entry per
      article, none empty, none twice. */
  function Categories(xs: seq<Article>): (cs: seq<string>)
    ensures |cs| <= |xs|
    ensures forall i :: 0 <= i < |cs| ==> cs[i] != ""
    ensures forall i, j :: 0 <= i < j < |cs| ==> cs[i] != cs[j]
  {
    var cs := Distinct(TruthyCategories(xs));
    assert forall i :: 0 <= i < |cs| ==> cs[i] != "" by {
      forall i | 0 <= i < |cs| ensures cs[i] != "" {
        assert cs[i] in TruthyCategories(xs);
        var k :| 0 <= k < |TruthyCategories(xs)| && TruthyCategories(xs)[k] == cs[i];
      }
    }
    cs
  }

  /** The category bar holds each non-empty category of the list exactly once, nothing else, in
      order of first appearance. */
  lemma CategoriesProps(xs: seq<Article>)
    ensures forall c :: c in Categories(xs) <==> c in TruthyCategories(xs)
    ensures forall c :: c in Categories(xs) <==> c != "" && exists i :: 0 <= i < |xs| && xs[i].category == Some(c)
    ensures forall i, j :: 0 <= i < j < |Categories(xs)| ==> Categories(xs)[i] != Categories(xs)[j]
    ensures forall i, j :: 0 <= i < j < |Categories(xs)| ==>
              FirstIndex(TruthyCategories(xs), Categories(xs)[i]) < FirstIndex(TruthyCategories(xs), Categories(xs)[j])
  {
    TruthyCategoriesMembers(xs);
    DistinctProps(TruthyCategories(xs));
  }

  /** `xs.filter(a => a.category === category)`: the articles of that category, in order, each as
      often as in `xs`. */
  function FilterByCategory(xs: seq<Article>, category: string): (r: seq<Article>)
    ensures IsSubsequence(r, xs)
    ensures forall a :: multiset(r)[a] == if a.category == Some(category) then multiset(xs)[a] else 0
    ensures forall i :: 0 <= i < |r| ==> r[i].category == Some(category)
  {
    var p := (a: Article) => a.category == Some(category);
    KeepProps(xs, p);
    Keep(xs, p)
  }

  /** The list shown for a selection: the whole list for `''`; otherwise an order-preserving
      part of it that holds only articles of the category. */
  function Shown(xs: seq<Article>, category: string): (r: seq<Article>)
    ensures category == "" ==> r == xs
    ensures category != "" ==> IsSubsequence(r, xs) && forall i :: 0 <= i < |r| ==> r[i].category == Some(category)
  {
    if category == "" then xs else FilterByCategory(xs, category)
  }

  /** Every shown article of a selected category has a category of the bar; a category not on the
      bar shows nothing. */
  lemma ShownWithinBar(xs: seq<Article>, category: string)
    requires category != ""
    ensures |Shown(xs, category)| > 0 ==> category in Categories(xs)
    ensures category !in Categories(xs) ==> Shown(xs, category) == []
  {
    CategoriesProps(xs);
    var r := Shown(xs, category);
    if |r| > 0 {
      assert r[0] in multiset(r);
      assert r[0] in multiset(xs);
      assert r[0] in xs;
      var i :| 0 <= i < |xs| && xs[i] == r[0];
      assert xs[i].category == Some(category);
    }
  }

  const CardExcerptLength := 150

  /** A card's text: `` `${content.slice(0, 150)}...` ``, the dots added even to short content. */
  function CardExcerpt(content: string): (e: string)
    ensures |content| <= CardExcerptLength ==> e == content + "..."
    ensures |content| > CardExcerptLength ==> |e| == CardExcerptLength + 3 && e[..CardExcerptLength] == content[..CardExcerptLength]
    ensures e[|e| - 3..] == "..."
  {
    (if |content| <= CardExcerptLength then content else content[..CardExcerptLength]) + "..."
  }

  /** `query.get('category') || ''`. */
  function SelectedCategory(query: Option<string>): (c: string)
    ensures c == "" <==> !Truthy(query)
    ensures Truthy(query) ==> c == query.value
  {
    OrElse(query, "")
  }

  /** The path `onCategoryClick(cat)` navigates to, for a given `encodeURIComponent`. */
  function CategoryPath(cat: string, encode: string -> string): (p: string)
    ensures cat == "" ==> p == ListPath
    ensures cat != "" ==> p == CategoryQuery + encode(cat)
  {
    if cat == "" then ListPath else CategoryQuery + encode(cat)
  }

  /** The name of the query parameter the page reads, and the path of a category's list. */
  const CategoryKey := "category"
  const CategoryQuery := ListPath + "?" + CategoryKey + "="

  /** `useLocation().search` of a navigated path: from its first `?` on, `''` when it has none. */
  function SearchOf(path: string): (s: string)
    ensures s == "" <==> '?' !in path
    ensures s != "" ==> s[0] == '?' && |s| <= |path| && s == path[|path| - |s|..]
  {
    if path == "" then ""
    else if path[0] == '?' then path
    else SearchOf(path[1..])
  }

  /** The search starts at the FIRST `?`: the part of the path before it holds none. */
  lemma {:induction false} SearchFromFirstMark(path: string)
    ensures forall i :: 0 <= i < |path| - |SearchOf(path)| ==> path[i] != '?'
  {
    if path != "" && path[0] != '?' {
      SearchFromFirstMark(path[1..]);
      assert forall i :: 1 <= i < |path| ==> path[i] == path[1..][i - 1];
    }
  }

  /** A path whose leading part holds no `?` has the search of its remainder. */
  lemma {:induction false} SearchSkips(a: string, b: string)
    requires '?' !in a
    ensures SearchOf(a + b) == SearchOf(b)
  {
    if a != "" {
      assert a[0] in a;
      assert (a + b)[0] == a[0] && (a + b)[1..] == a[1..] + b;
      assert forall x :: x in a[1..] ==> x in a;
      SearchSkips(a[1..], b);
    } else {
      assert a + b == b;
    }
  }

  /** The text of `s` before its first `c` (all of `s` when there is none). */
  function Before(s: string, c: char): string {
    if s == "" || s[0] == c then "" else [s[0]] + Before(s[1..], c)
  }

  /** The text of `s` after its first `c` (`''` when there is none). */
  function After(s: string, c: char): string {
    if s == "" then "" else if s[0] == c then s[1..] else After(s[1..], c)
  }

  /** A pair splits at its first `=`: the name holds no `=`, and name, `=` and value make up the pair;
      a pair without `=` is all name, with an empty value. */
  lemma {:induction false} BeforeAfter(s: string, c: char)
    ensures c !in Before(s, c)
    ensures c in s ==> s == Before(s, c) + [c] + After(s, c)
    ensures c !in s ==> Before(s, c) == s && After(s, c) == ""
  {
    if s != "" && s[0] != c {
      var b, a := Before(s[1..], c), After(s[1..], c);
      BeforeAfter(s[1..], c);
      assert Before(s, c) == [s[0]] + b && After(s, c) == a;
      assert c in s ==> c in s[1..] by {
        if c in s {
          var k :| 0 <= k < |s| && s[k] == c;
          assert s[1..][k - 1] == c;
        }
      }
      assert c in s ==> s == [s[0]] + (b + [c] + a);
    } else if s != "" {
      assert s == [] + [c] + s[1..];
    }
  }

  /** Splitting at the first `c` undoes putting `c` between a `c`-free name and any value. */
  lemma {:induction false} BeforeAfterJoin(a: string, c: char, b: string)
    requires c !in a
    ensures Before(a + [c] + b, c) == a && After(a + [c] + b, c) == b
  {
    if a != "" {
      assert (a + [c] + b)[1..] == a[1..] + [c] + b;
      BeforeAfterJoin(a[1..], c, b);
    }
  }

  /** The `name=value` pairs of a search string, as `URLSearchParams` reads them: a leading `?`
      dropped, the rest split on `&`, empty pieces skipped. */
  function Params(search: string): (ps: seq<string>)
    ensures forall i :: 0 <= i < |ps| ==> ps[i] != "" && '&' !in ps[i]
  {
    var body := if search != "" && search[0] == '?' then search[1..] else search;
    var pieces := Split(body, '&');
    FilterNonEmptyProps(pieces);
    SplitPiecesFree(body, '&');
    assert forall x :: x in FilterNonEmpty(pieces) ==> '&' !in x by {
      forall x | x in FilterNonEmpty(pieces) ensures '&' !in x {
        var j :| 0 <= j < |pieces| && pieces[j] == x;
      }
    }
    FilterNonEmpty(pieces)
  }

  /** `URLSearchParams.get(key)` over the pairs, for a given decoding of names and values: the
      decoded value of the FIRST pair whose decoded name is `key`, None when no pair has it. */
  function ParamGet(ps: seq<string>, key: string, decode: string -> string): (r: Option<string>)
    ensures r.None? <==> forall i :: 0 <= i < |ps| ==> decode(Before(ps[i], '=')) != key
    ensures r.Some? ==> exists i :: (0 <= i < |ps| && decode(Before(ps[i], '=')) == key
      && r.value == decode(After(ps[i], '='))
      && forall j :: 0 <= j < i ==> decode(Before(ps[j], '=')) != key)
  {
    if ps == [] then None
    else if decode(Before(ps[0], '=')) == key then Some(decode(After(ps[0], '=')))
    else
      var r := ParamGet(ps[1..], key, decode);
      assert forall i :: 1 <= i < |ps| ==> ps[i] == ps[1..][i - 1];
      if r.Some? then
        var i :| 0 <= i < |ps[1..]| && decode(Before(ps[1..][i], '=')) == key
          && r.value == decode(After(ps[1..][i], '='))
          && forall j :: 0 <= j < i ==> decode(Before(ps[1..][j], '=')) != key;
        assert decode(Before(ps[i + 1], '=')) == key && r.value == decode(After(ps[i + 1], '='));
        r
      else r
  }

  /** `new URLSearchParams(useLocation().search).get('category')`, for a given decoding: the
      category pair is found in any position of the query, and the first one wins. */
  function QueryOf(search: string, decode: string -> string): (q: Option<string>)
    ensures q.None? <==> forall i :: 0 <= i < |Params(search)| ==> decode(Before(Params(search)[i], '=')) != CategoryKey
    ensures q.Some? ==> exists i :: (0 <= i < |Params(search)|
      && decode(Before(Params(search)[i], '=')) == CategoryKey
      && q.value == decode(After(Params(search)[i], '='))
      && forall j :: 0 <= j < i ==> decode(Before(Params(search)[j], '=')) != CategoryKey)
  {
    ParamGet(Params(search), CategoryKey, decode)
  }

  /** Neither the list path nor the parameter name holds a separator of the query. */
  lemma SeparatorFree()
    ensures '?' !in ListPath && '=' !in CategoryKey && '&' !in CategoryKey
  {
    assert forall i :: 0 <= i < |ListPath| ==> ListPath[i] != '?';
    assert forall i :: 0 <= i < |CategoryKey| ==> CategoryKey[i] != '=' && CategoryKey[i] != '&';
  }

  /** The pairs of a search of one or two non-empty pieces without `&`. */
  lemma {:induction false} ParamsOfPieces(a: string, b: string)
    requires a != "" && '&' !in a && b != "" && '&' !in b
    ensures Params("?" + a) == [a]
    ensures Params("?" + a + "&" + b) == [a, b]
  {
    SplitNoSeparator(a, '&');
    SplitNoSeparator(b, '&');
    FilterNonEmptyProps([a]);
    assert ("?" + a)[1..] == a;
    var two := "?" + a + "&" + b;
    assert two[0] == '?' && two[1..] == a + ['&'] + b;
    SplitAtSeparator(a, '&', b);
    FilterNonEmptyProps([a, b]);
  }

  /** A pair `k=v` whose name holds no `=` gives the decoded `v` under the decoded `k`. */
  lemma {:induction false} PairReadsBack(k: string, v: string, decode: string -> string)
    requires '=' !in k
    ensures ParamGet([k + "=" + v], decode(k), decode) == Some(decode(v))
  {
    assert k + "=" + v == k + ['='] + v;
    BeforeAfterJoin(k, '=', v);
  }

  /** The parameter is read wherever it stands: behind another pair (`?sort=new&category=…`) it is
      found all the same. */
  lemma {:induction false} QueryBehindOtherPair(other: string, v: string, decode: string -> string)
    requires other != "" && '&' !in other && '&' !in v
    requires decode(Before(other, '=')) != CategoryKey && decode(CategoryKey) == CategoryKey
    ensures QueryOf("?" + other + "&" + CategoryKey + "=" + v, decode) == Some(decode(v))
  {
    var pair := CategoryKey + "=" + v;
    SeparatorFree();
    assert '&' !in pair;
    ParamsOfPieces(other, pair);
    assert "?" + other + "&" + CategoryKey + "=" + v == "?" + other + "&" + pair;
    PairReadsBack(CategoryKey, v, decode);
    assert [other, pair][1..] == [pair];
  }

  /** The path of a category link reads back as the encoded category, whenever the encoding holds
      no `&` and the decoding leaves the name `category` alone. */
  lemma {:induction false} QueryReadsBack(e: string, decode: string -> string)
    requires '&' !in e && decode(CategoryKey) == CategoryKey
    ensures QueryOf(SearchOf(CategoryQuery + e), decode) == Some(decode(e))
  {
    var pair := CategoryKey + "=" + e;
    SeparatorFree();
    assert CategoryQuery + e == ListPath + ("?" + pair);
    SearchSkips(ListPath, "?" + pair);
    assert '&' !in pair;
    ParamsOfPieces(pair, pair);
    PairReadsBack(CategoryKey, e, decode);
  }

  /** The plain list path carries no query, so no category. */
  lemma PlainListHasNoCategory(decode: string -> string)
    ensures QueryOf(SearchOf(ListPath), decode) == None
  {
    SeparatorFree();
    SplitNoSeparator("", '&');
    assert [""][1..] == [];
    assert Params("") == [];
  }

  /** Clicking a category selects it: the path it navigates to reads back as that selection,
      `''` included, whenever decoding undoes encoding, the encoding holds no `&` and the name
      `category` decodes to itself. */
  lemma {:induction false} ClickSelects(cat: string, encode: string -> string, decode: string -> string)
    requires decode(encode(cat)) == cat && '&' !in encode(cat) && decode(CategoryKey) == CategoryKey
    ensures SelectedCategory(QueryOf(SearchOf(CategoryPath(cat, encode)), decode)) == cat
  {
    if cat != "" {
      QueryReadsBack(encode(cat), decode);
    } else {
      PlainListHasNoCategory(decode);
    }
  }

  class AllArticlesPage {
    var articles: seq<Article>
    var loading: bool
    var selectedCategory: string
    var categories: seq<string>

    constructor ()
      ensures articles == [] && loading && selectedCategory == "" && categories == []
    {
      articles := [];
      loading := true;
      selectedCategory := "";
      categories := [];
    }

    /** The effect that copies the query parameter into the selection; `search` is the location's
        search string. */
    method SelectFromQuery(search: string, decode: string -> string)
      modifies this`selectedCategory
      ensures selectedCategory == SelectedCategory(QueryOf(search, decode))
    {
      selectedCategory := OrElse(QueryOf(search, decode), "");
    }

    /** `fetchArticles(category)`. `reply` is the fetched array (None: the request failed or the
        body was not an array). Returns the error toast. */
    method FetchArticles(category: string, reply: Option<seq<Article>>) returns (toast: Option<string>)
      modifies this`articles, this`categories, this`loading
      ensures !loading
      ensures reply.None? ==>
        articles == old(articles) && categories == old(categories) && toast == Some(LoadFailed)
      ensures reply.Some? ==>
        categories == Categories(reply.value) && articles == Shown(reply.value, category) && toast == None
    {
      loading := true;
      toast := None;
      if reply.Some? {
        var fetched := reply.value;
        categories := Categories(fetched);
        if category != "" {
          fetched := FilterByCategory(fetched, category);
        }
        articles := fetched;
      } else {
        toast := Some(LoadFailed);
      }
      loading := false;
    }
  }
}

=== FILE: api.dfy ===
/** The shared HTTP client (`api`): its configuration and the request interceptor that
    attaches the stored backend token as a bearer credential. */
module Api {
  import opened Js
  import WebStorage
  import AuthContext

  const FallbackBaseUrl := "https://knowshare-lime.vercel.app"

  datatype ClientConfig = ClientConfig(baseURL: string, withCredentials: bool)

  /** `axios.create({ baseURL: VITE_API_BASE_URL || fallback, withCredentials: true })`;
      `env` is the build-time variable, None when it is not defined. */
  function Client(env: Option<string>): (c: ClientConfig)
    ensures c.withCredentials
    ensures Truthy(env) ==> c.baseURL == env.value
    ensures !Truthy(env) ==> c.baseURL == FallbackBaseUrl
  {
    ClientConfig(OrElse(env, FallbackBaseUrl), true)
  }

  /** The header value the interceptor sets: `` `Bearer ${token}` ``. */
  function Bearer(token: string): string {
    "Bearer " + token
  }

  /** The per-request configuration the interceptor receives and returns. */
  class RequestConfig {
    const url: string
    var headers: map<string, string>

    constructor (url: string, headers: map<string, string>)
      ensures this.url == url && this.headers == headers
    {
      this.url := url;
      this.headers := headers;
    }
  }

  /** The request interceptor: with a non-empty stored token the `Authorization` header becomes
      the bearer credential; without one the headers are left alone and the request still goes out.
      The same configuration object is returned. */
  method Intercept(config: RequestConfig, storage: WebStorage.Storage) returns (r: RequestConfig)
    modifies config`headers
    ensures r == config
    ensures Truthy(storage.GetItem(AuthContext.TokenKey)) ==>
      config.headers == old(config.headers)["Authorization" := Bearer(storage.items[AuthContext.TokenKey])]
    ensures !Truthy(storage.GetItem(AuthContext.TokenKey)) ==> config.headers == old(config.headers)
  {
    var token := storage.GetItem(AuthContext.TokenKey);
    if Truthy(token) {
      config.headers := config.headers["Authorization" := Bearer(token.value)];
    }
    return config;
  }
}

=== FILE: app.dfy ===
/** The app shell: whether the Navbar and Footer are shown for a path, and the one-shot
    `reload_done` flag that sends the user home after a sign-in reload. */
module App {
  import opened Js
  import WebStorage

  /** Paths on which the layout is hidden although they are known. */
  const HideLayoutPaths: seq<string> := ["/login", "/register"]

  /** The listed paths of the shell, matched exactly. */
  const KnownPaths: seq<string> := [
    "/", "/contact", "/terms", "/login", "/register", "/all-articles",
    "/about", "/my-articles", "/post-article", "/edit-article/"]

  const ArticlePrefix := "/article/"
  const EditArticlePrefix := "/edit-article/"
  const ProfilePath := "/profile"

  /** `isKnownRoute` as written: one of the listed paths, or a path starting with `/article/`.
      Of the `/edit-article/` paths only the bare prefix counts, and the profile page does not. */
  predicate IsKnownRouteAsWritten(path: string)
    ensures StartsWith(path, EditArticlePrefix) ==> (IsKnownRouteAsWritten(path) <==> path == EditArticlePrefix)
    ensures path == ProfilePath ==> !IsKnownRouteAsWritten(path)
  {
    assert StartsWith(path, EditArticlePrefix) ==> path[1] == 'e' != ArticlePrefix[1];
    assert StartsWith(path, EditArticlePrefix) && path in KnownPaths ==> path == EditArticlePrefix;
    path in KnownPaths || StartsWith(path, ArticlePrefix)
  }

  /** `hideLayout` as written: an article page keeps the Navbar and Footer, while every Edit
      Article page with an id and the profile page lose them. */
  predicate HideLayoutAsWritten(path: string)
    ensures StartsWith(path, ArticlePrefix) ==> !HideLayoutAsWritten(path)
    ensures StartsWith(path, EditArticlePrefix) && path != EditArticlePrefix ==> HideLayoutAsWritten(path)
    ensures path == ProfilePath ==> HideLayoutAsWritten(path)
  {
    assert StartsWith(path, ArticlePrefix) ==> path[1] == 'a' && path !in HideLayoutPaths;
    path in HideLayoutPaths || !IsKnownRouteAsWritten(path)
  }

  /** The paths the router sends to a page other than the error page: the static routes, and
      `/article/:id` or `/edit-article/:id` with a non-empty id without `/`. */
  const StaticRoutes: seq<string> := [
    "/profile", "/contact", "/terms", "/", "/login", "/register", "/all-articles",
    "/post-article", "/my-articles", "/about"]

  predicate IsSegment(s: string) {
    s != "" && '/' !in s
  }

  predicate RouterRendersPage(path: string)
    ensures path in HideLayoutPaths || path == ProfilePath ==> RouterRendersPage(path)
    ensures path == ArticlePrefix || path == EditArticlePrefix ==> !RouterRendersPage(path)
    ensures RouterRendersPage(path) ==> path != "" && path[0] == '/'
  {
    || path in StaticRoutes
    || (StartsWith(path, ArticlePrefix) && IsSegment(path[|ArticlePrefix|..]))
    || (StartsWith(path, EditArticlePrefix) && IsSegment(path[|EditArticlePrefix|..]))
  }

  /** The Edit Article page and the profile page are routed to, yet the shell as written treats
      them as unknown and hides the Navbar and Footer; `/edit-article/` itself, which the router
      sends to the error page, counts as known. */
  lemma AsWrittenHidesRoutedPages()
    ensures RouterRendersPage("/edit-article/42") && HideLayoutAsWritten("/edit-article/42")
    ensures RouterRendersPage(ProfilePath) && HideLayoutAsWritten(ProfilePath)
    ensures !RouterRendersPage("/edit-article/") && IsKnownRouteAsWritten("/edit-article/")
  {
    assert "/edit-article/42"[..|ArticlePrefix|][1] == 'e' != ArticlePrefix[1];
    assert "/edit-article/42"[..|EditArticlePrefix|] == EditArticlePrefix;
    assert "/edit-article/42"[|EditArticlePrefix|..] == "42";
    assert "/edit-article/"[..|ArticlePrefix|][1] == 'e' != ArticlePrefix[1];
    assert "/edit-article/"[|EditArticlePrefix|..] == "";
  }

  /** `isKnownRoute` with `/edit-article/` matched as a prefix, like `/article/`, and the profile
      page listed. */
  predicate IsKnownRoute(path: string)
    ensures IsKnownRouteAsWritten(path) ==> IsKnownRoute(path)
    ensures StartsWith(path, EditArticlePrefix) || path == ProfilePath ==> IsKnownRoute(path)
    ensures IsKnownRoute(path) && !IsKnownRouteAsWritten(path) ==>
              (StartsWith(path, EditArticlePrefix) && path != EditArticlePrefix) || path == ProfilePath
  {
    path in KnownPaths || path == ProfilePath
    || StartsWith(path, ArticlePrefix) || StartsWith(path, EditArticlePrefix)
  }

  /** Whether the Navbar and Footer are hidden: on every page the router renders they are shown
      unless it is a sign-in page, and away from the Edit Article paths and the profile page the
      rule is the shell's own. */
  function HideLayout(path: string): (hidden: bool)
    ensures RouterRendersPage(path) ==> (hidden <==> path in HideLayoutPaths)
    ensures !StartsWith(path, EditArticlePrefix) && path != ProfilePath ==> hidden == HideLayoutAsWritten(path)
  {
    path in HideLayoutPaths || !IsKnownRoute(path)
  }

  /** Every path the router sends to a page is known, so the layout is hidden on the sign-in pages
      and on the error page only. */
  lemma RoutedPagesKnown(path: string)
    ensures RouterRendersPage(path) ==> IsKnownRoute(path)
    ensures RouterRendersPage(path) ==> (HideLayout(path) <==> path in HideLayoutPaths)
  {
  }

  /** The correction only adds the Edit Article paths and the profile page: elsewhere it agrees
      with the shell as written. */
  lemma CorrectionAgreesElsewhere(path: string)
    requires !StartsWith(path, EditArticlePrefix) && path != ProfilePath
    ensures IsKnownRoute(path) <==> IsKnownRouteAsWritten(path)
    ensures HideLayout(path) == HideLayoutAsWritten(path)
  {
  }

  /** The shell's effect on mount: a truthy `reload_done` flag is removed and the app navigates
      (replacing the entry) to `/`; otherwise nothing happens. */
  method ConsumeReloadFlag(session: WebStorage.Storage) returns (navigateTo: Option<string>)
    modifies session
    ensures Truthy(old(session.GetItem(WebStorage.ReloadFlag))) ==>
      session.items == old(session.items) - {WebStorage.ReloadFlag} && navigateTo == Some("/")
    ensures !Truthy(old(session.GetItem(WebStorage.ReloadFlag))) ==>
      session.items == old(session.items) && navigateTo == None
  {
    navigateTo := None;
    var flag := session.GetItem(WebStorage.ReloadFlag);
    if Truthy(flag) {
      session.RemoveItem(WebStorage.ReloadFlag);
      navigateTo := Some("/");
    }
  }
}

=== FILE: article_details.dfy ===
/** The Article Details page: loading an article with its like state, the like/unlike toggle
    with its in-flight guard, the comment form, and the choice of what to render. */
module ArticleDetails {
  import opened Js
  import opened Articles

  const LoginToLike := "Please login to like"
  const TokenMissing := "Authentication token missing. Please login again."
  const LoginToComment := "Please login to comment"
  const CommentEmpty := "Comment cannot be empty"
  const CommentAdded := "Comment added!"
  const CommentFailed := "Failed to add comment"
  const LoadFailed := "Failed to load article. Please Login first"
  const CommentsFailed := "Failed to load comments"

  datatype Comment = Comment(author: string, text: string)

  /** The body of `GET /articles/:id`: the `article` field when the backend wraps the article,
      the body itself read as an article, and the like fields when present. */
  datatype ArticleReply = ArticleReply(
    article: Option<Article>,
    body: Article,
    likesCount: Option<int>,
    userLiked: Option<bool>)

  /** The state the page takes from a reply. */
  datatype LoadedState = LoadedState(article: Article, likesCount: int, userLiked: bool)

  /** `res.data.article || res.data`, `res.data.likesCount || 0`, `res.data.userLiked || false`. */
  function Loaded(reply: ArticleReply): (s: LoadedState)
    ensures s.article == if reply.article.Some? then reply.article.value else reply.body
    ensures reply.likesCount.None? ==> s.likesCount == 0
    ensures reply.likesCount.Some? ==> s.likesCount == reply.likesCount.value
    ensures s.userLiked <==> reply.userLiked == Some(true)
  {
    LoadedState(
      if reply.article.Some? then reply.article.value else reply.body,
      reply.likesCount.GetOr(0),
      reply.userLiked.GetOr(false))
  }

  /** The like request sent: `PUT /articles/:id/like` or `/unlike`, with the bearer token. */
  datatype LikeRequest = Like(token: string) | Unlike(token: string)

  /** The checks of `handleLike` in their order. */
  datatype LikeGate = NeedLogin | NeedToken | InFlight | Proceed

  function LikeGateOf(hasUser: bool, token: Option<string>, likeLoading: bool): (g: LikeGate)
    ensures g == Proceed <==> hasUser && Truthy(token) && !likeLoading
    ensures !hasUser ==> g == NeedLogin
    ensures hasUser && !Truthy(token) ==> g == NeedToken
    ensures hasUser && Truthy(token) && likeLoading ==> g == InFlight
  {
    if !hasUser then NeedLogin
    else if !Truthy(token) then NeedToken
    else if likeLoading then InFlight
    else Proceed
  }

  /** Count and flag after a like request from (`count`, `liked`) that succeeded (`ok`) or failed. */
  function AfterLike(count: int, liked: bool, ok: bool): (r: (int, bool))
    ensures ok <==> r.1 != liked
    ensures !ok ==> r.0 == count
    ensures OthersLikes(r.0, r.1) == OthersLikes(count, liked)
  {
    if !ok then (count, liked)
    else if liked then (count - 1, false)
    else (count + 1, true)
  }

  /** The likes of everybody else: the count less the user's own like. */
  function OthersLikes(count: int, liked: bool): int {
    count - (if liked then 1 else 0)
  }

  /** A success flips the flag and moves the count by one in the flag's direction; a failure changes nothing. */
  lemma AfterLikeMoves(count: int, liked: bool, ok: bool)
    ensures ok ==> AfterLike(count, liked, ok).1 == !liked
    ensures ok && !liked ==> AfterLike(count, liked, ok).0 == count + 1
    ensures ok && liked ==> AfterLike(count, liked, ok).0 == count - 1
    ensures !ok ==> AfterLike(count, liked, ok) == (count, liked)
  {
  }

  /** Every like or unlike, successful or not, leaves everybody else's likes as they were. */
  lemma AfterLikeKeepsOthers(count: int, liked: bool, ok: bool)
    ensures OthersLikes(AfterLike(count, liked, ok).0, AfterLike(count, liked, ok).1) == OthersLikes(count, liked)
  {
  }

  /** Two successful toggles in a row restore the count and the flag. */
  lemma ToggleTwiceRestores(count: int, liked: bool)
    ensures AfterLike(AfterLike(count, liked, true).0, AfterLike(count, liked, true).1, true) == (count, liked)
  {
  }

  /** The checks of `handleCommentSubmit` in their order: a user, a non-blank comment, a token. */
  function CommentGuard(hasUser: bool, comment: string, token: Option<string>): (r: Option<string>)
    ensures r.None? <==> hasUser && !IsBlank(comment) && Truthy(token)
    ensures !hasUser ==> r == Some(LoginToComment)
    ensures hasUser && IsBlank(comment) ==> r == Some(CommentEmpty)
    ensures hasUser && !IsBlank(comment) && !Truthy(token) ==> r == Some(TokenMissing)
  {
    if !hasUser then Some(LoginToComment)
    else if IsBlank(comment) then Some(CommentEmpty)
    else if !Truthy(token) then Some(TokenMissing)
    else None
  }

  /** The comment request sent: `POST /articles/:id/comments` with `{ comment }` and the bearer token. */
  datatype CommentPost = CommentPost(comment: string, token: string)

  /** What the page renders. `Crash` is the `TypeError` of reading `article.title` when `article` is null. */
  datatype Screen = Loading | RedirectToLogin | Details(article: Article) | Crash | NotFound

  /** The render as written: loading, then the login redirect when there is neither an article
      nor a user, then the article's fields. */
  function ScreenAsWritten(loading: bool, article: Option<Article>, hasUser: bool): (s: Screen)
    ensures s == Crash <==> !loading && article.None? && hasUser
  {
    if loading then Loading
    else if article.None? && !hasUser then RedirectToLogin
    else if article.None? then Crash
    else Details(article.value)
  }

  /** A signed-in reader whose article failed to load gets the `TypeError`. */
  lemma ScreenAsWrittenCrashes()
    ensures ScreenAsWritten(false, None, true) == Crash
  {
  }

  /** The render with the null article handled: never a crash, the article shown exactly when
      loaded, the login redirect exactly as before. */
  function ScreenOf(loading: bool, article: Option<Article>, hasUser: bool): (s: Screen)
    ensures s != Crash
    ensures s.Details? <==> !loading && article.Some?
    ensures s.Details? ==> s.article == article.value
    ensures s == RedirectToLogin <==> ScreenAsWritten(loading, article, hasUser) == RedirectToLogin
    ensures ScreenAsWritten(loading, article, hasUser) != Crash ==> s == ScreenAsWritten(loading, article, hasUser)
  {
    if loading then Loading
    else if article.None? && !hasUser then RedirectToLogin
    else if article.None? then NotFound
    else Details(article.value)
  }

  class ArticleView {
    var article: Option<Article>
    var comments: seq<Comment>
    var newComment: string
    var likesCount: int
    var userLiked: bool
    var loading: bool
    var likeLoading: bool

    /** The initial state of the page. */
    constructor ()
      ensures article == None && comments == [] && newComment == ""
      ensures likesCount == 0 && !userLiked && loading && !likeLoading
    {
      article := None;
      comments := [];
      newComment := "";
      likesCount := 0;
      userLiked := false;
      loading := true;
      likeLoading := false;
    }

    /** `fetchArticleAndComments`. `reply` is the article reply (None: the request failed) and
        `commentReply` the comments reply (None: that request failed). Returns the error toasts in
        the order shown; the comments are only requested once the article has loaded. */
    method Load(reply: Option<ArticleReply>, commentReply: Option<seq<Comment>>) returns (toasts: seq<string>)
      modifies this`article, this`likesCount, this`userLiked, this`comments, this`loading
      ensures !loading
      ensures reply.Some? ==>
        && article == Some(Loaded(reply.value).article)
        && likesCount == Loaded(reply.value).likesCount
        && userLiked == Loaded(reply.value).userLiked
        && comments == (if commentReply.Some? then commentReply.value else old(comments))
        && toasts == (if commentReply.Some? then [] else [CommentsFailed])
      ensures reply.None? ==>
        && article == old(article) && likesCount == old(likesCount) && userLiked == old(userLiked)
        && comments == old(comments) && toasts == [LoadFailed]
    {
      loading := true;
      toasts := [];
      if reply.Some? {
        var s := Loaded(reply.value);
        article := Some(s.article);
        likesCount := s.likesCount;
        userLiked := s.userLiked;
        toasts := FetchComments(commentReply);
      } else {
        toasts := [LoadFailed];
      }
      loading := false;
    }

    /** `fetchComments`. Returns the error toasts. */
    method FetchComments(commentReply: Option<seq<Comment>>) returns (toasts: seq<string>)
      modifies this`comments
      ensures commentReply.Some? ==> comments == commentReply.value && toasts == []
      ensures commentReply.None? ==> comments == old(comments) && toasts == [CommentsFailed]
    {
      if commentReply.Some? {
        comments := commentReply.value;
        toasts := [];
      } else {
        toasts := [CommentsFailed];
      }
    }

    /** `handleLike`. `ok` says whether the like request succeeded, `failure` is the error text
        shown when it did not. Past the checks, the request matching the current flag is sent,
        count and flag move as `AfterLike` says, and the in-flight flag is down again afterwards. */
    method HandleLike(hasUser: bool, token: Option<string>, ok: bool, failure: string)
      returns (toast: Option<string>, request: Option<LikeRequest>)
      modifies this`likesCount, this`userLiked, this`likeLoading
      ensures LikeGateOf(hasUser, token, old(likeLoading)) != Proceed ==>
        && request == None
        && likesCount == old(likesCount) && userLiked == old(userLiked) && likeLoading == old(likeLoading)
      ensures LikeGateOf(hasUser, token, old(likeLoading)) == NeedLogin ==> toast == Some(LoginToLike)
      ensures LikeGateOf(hasUser, token, old(likeLoading)) == NeedToken ==> toast == Some(TokenMissing)
      ensures LikeGateOf(hasUser, token, old(likeLoading)) == InFlight ==> toast == None
      ensures LikeGateOf(hasUser, token, old(likeLoading)) == Proceed ==>
        && request == Some(if old(userLiked) then Unlike(token.value) else Like(token.value))
        && (likesCount, userLiked) == AfterLike(old(likesCount), old(userLiked), ok)
        && toast == (if ok then None else Some(failure))
        && !likeLoading
    {
      request := None;
      toast := None;
      match LikeGateOf(hasUser, token, likeLoading)
      case NeedLogin =>
        toast := Some(LoginToLike);
      case NeedToken =>
        toast := Some(TokenMissing);
      case InFlight =>
      case Proceed =>
        likeLoading := true;
        if userLiked {
          request := Some(Unlike(token.value));
          if ok {
            likesCount := likesCount - 1;
          }
        } else {
          request := Some(Like(token.value));
          if ok {
            likesCount := likesCount + 1;
          }
        }
        if ok {
          userLiked := !userLiked;
        } else {
          toast := Some(failure);
        }
        likeLoading := false;
    }

    /** `handleCommentSubmit`. `ok` says whether the post succeeded and `refreshed` is the comments
        reply fetched after it (None: that request failed). Returns the toasts in the order shown. */
    method HandleCommentSubmit(hasUser: bool, token: Option<string>, ok: bool, refreshed: Option<seq<Comment>>)
      returns (toasts: seq<string>, post: Option<CommentPost>)
      modifies this`newComment, this`comments
      ensures CommentGuard(hasUser, old(newComment), token).Some? ==>
        && toasts == [CommentGuard(hasUser, old(newComment), token).value] && post == None
        && newComment == old(newComment) && comments == old(comments)
      ensures CommentGuard(hasUser, old(newComment), token).None? ==>
        post == Some(CommentPost(old(newComment), token.value))
      ensures CommentGuard(hasUser, old(newComment), token).None? && ok ==>
        && newComment == ""
        && comments == (if refreshed.Some? then refreshed.value else old(comments))
        && toasts == [CommentAdded] + (if refreshed.Some? then [] else [CommentsFailed])
      ensures CommentGuard(hasUser, old(newComment), token).None? && !ok ==>
        newComment == old(newComment) && comments == old(comments) && toasts == [CommentFailed]
    {
      var guard := CommentGuard(hasUser, newComment, token);
      post := None;
      if guard.Some? {
        return [guard.value], None;
      }
      post := Some(CommentPost(newComment, token.value));
      if ok {
        newComment := "";
        var more := FetchComments(refreshed);
        toasts := [CommentAdded] + more;
      } else {
        toasts := [CommentFailed];
      }
    }
  }
}

=== FILE: articles.dfy ===
/** The article record as the backend returns it, and the list operations the pages run on
    lists of articles: `filter` with a predicate and distinct values in order of first appearance. */
module Articles {
  import opened Js

  /** A text field of the backend's JSON, which may be missing (`undefined`) or `null`. */
  datatype TextField = Undefined | Null | Text(value: string)

  /** A value that is a string or `null`, as the identity provider's user email is. */
  function FromNullable(e: Option<string>): (f: TextField)
    ensures f != Undefined
    ensures f.Null? <==> e.None?
    ensures e.Some? ==> f.Text? && f.value == e.value
  {
    if e.Some? then Text(e.value) else Null
  }

  /** An article. `createdAt` is an integer timestamp; `category` and `tags` may be missing from
      the backend's JSON, and `author_email` may be missing or `null`. */
  datatype Article = Article(
    id: string,
    title: string,
    content: string,
    category: Option<string>,
    tags: Option<seq<string>>,
    createdAt: int,
    authorEmail: TextField)

  /** `xs.filter(p)`: never longer than `xs`, and everything it keeps passes `p`. */
  function Keep(xs: seq<Article>, p: Article -> bool): (r: seq<Article>)
    ensures |r| <= |xs|
    ensures forall i :: 0 <= i < |r| ==> p(r[i])
  {
    if xs == [] then []
    else if p(xs[0]) then [xs[0]] + Keep(xs[1..], p)
    else Keep(xs[1..], p)
  }

  /** `filter` keeps the order, keeps every element that passes as often as it occurs and
      drops every element that fails. */
  lemma {:induction false} KeepProps(xs: seq<Article>, p: Article -> bool)
    ensures IsSubsequence(Keep(xs, p), xs)
    ensures forall a :: multiset(Keep(xs, p))[a] == if p(a) then multiset(xs)[a] else 0
    ensures forall i :: 0 <= i < |Keep(xs, p)| ==> p(Keep(xs, p)[i])
  {
    if xs != [] {
      KeepProps(xs[1..], p);
      assert xs == [xs[0]] + xs[1..];
      assert multiset(xs) == multiset{xs[0]} + multiset(xs[1..]);
      if p(xs[0]) {
        var r := Keep(xs, p);
        assert r[1..] == Keep(xs[1..], p);
      } else {
        SubsequenceSkip(Keep(xs[1..], p), xs);
      }
    }
  }

  /** The first position of `x` in `xs`. */
  function FirstIndex(xs: seq<string>, x: string): (k: nat)
    requires x in xs
    ensures k < |xs| && xs[k] == x && x !in xs[..k]
  {
    if xs[0] == x then 0 else 1 + FirstIndex(xs[1..], x)
  }

  /** `Array.from(new Set(xs))` when the values in `seen` are already in the set: each value
      not seen before, at the place it first appears. */
  function DistinctFrom(xs: seq<string>, seen: set<string>): (r: seq<string>)
    ensures |r| <= |xs|
  {
    if xs == [] then []
    else if xs[0] in seen then DistinctFrom(xs[1..], seen)
    else [xs[0]] + DistinctFrom(xs[1..], seen + {xs[0]})
  }

  /** `Array.from(new Set(xs))`: no longer than `xs`, every value once, and only values of `xs`. */
  function Distinct(xs: seq<string>): (r: seq<string>)
    ensures |r| <= |xs|
    ensures forall x :: x in r ==> x in xs
    ensures forall i, j :: 0 <= i < j < |r| ==> r[i] != r[j]
  {
    DistinctFromProps(xs, {});
    DistinctFrom(xs, {})
  }

  /** The values kept are those of `xs` not seen before, each once. */
  lemma {:induction false} DistinctFromMembers(xs: seq<string>, seen: set<string>)
    ensures forall x :: x in DistinctFrom(xs, seen) <==> x in xs && x !in seen
    ensures forall i, j :: 0 <= i < j < |DistinctFrom(xs, seen)| ==>
              DistinctFrom(xs, seen)[i] != DistinctFrom(xs, seen)[j]
  {
    if xs != [] {
      var x := xs[0];
      var seen' := if x in seen then seen else seen + {x};
      var r' := DistinctFrom(xs[1..], seen');
      DistinctFromMembers(xs[1..], seen');
      assert xs == [x] + xs[1..];
      if x !in seen {
        var r := DistinctFrom(xs, seen);
        assert r == [x] + r';
        forall i, j | 0 <= i < j < |r| ensures r[i] != r[j] {
          assert r[j] == r'[j - 1] && r[j] in r';
          if i > 0 {
            assert r[i] == r'[i - 1];
          }
        }
      }
    }
  }

  /** Every value of `r` is in `xs`, and `r` lists them in the order of their first occurrence. */
  ghost predicate InFirstOrder(xs: seq<string>, r: seq<string>) {
    (forall x :: x in r ==> x in xs)
    && forall i, j :: 0 <= i < j < |r| ==> r[i] in xs && r[j] in xs && FirstIndex(xs, r[i]) < FirstIndex(xs, r[j])
  }

  /** The values kept appear in the order of their first occurrence in `xs`. */
  lemma {:induction false} DistinctFromOrder(xs: seq<string>, seen: set<string>)
    ensures InFirstOrder(xs, DistinctFrom(xs, seen))
  {
    if xs != [] {
      var x := xs[0];
      var seen' := if x in seen then seen else seen + {x};
      DistinctFromOrder(xs[1..], seen');
      DistinctFromMembers(xs[1..], seen');
      assert x in seen ==> forall y :: y in DistinctFrom(xs[1..], seen') ==> y != x;
      FirstOrderStep(xs, DistinctFrom(xs[1..], seen'));
    }
  }

  /** An order by first occurrence in the tail of `xs` is one in `xs` too, also with the head in
      front, when the head is not listed. */
  lemma FirstOrderStep(xs: seq<string>, r: seq<string>)
    requires xs != [] && InFirstOrder(xs[1..], r) && xs[0] !in r
    ensures InFirstOrder(xs, r) && InFirstOrder(xs, [xs[0]] + r)
  {
    forall y | y in r ensures y in xs && FirstIndex(xs, y) == 1 + FirstIndex(xs[1..], y) {
      FirstIndexTail(xs, y);
    }
    var r0 := [xs[0]] + r;
    forall i, j | 0 <= i < j < |r0| ensures r0[i] in xs && r0[j] in xs && FirstIndex(xs, r0[i]) < FirstIndex(xs, r0[j]) {
      assert r0[j] == r[j - 1] && r0[j] in r;
      if i > 0 {
        assert r0[i] == r[i - 1];
      }
    }
  }

  /** Past a different first element, the first position is one more than in the tail. */
  lemma FirstIndexTail(xs: seq<string>, y: string)
    requires xs != [] && y in xs[1..] && y != xs[0]
    ensures y in xs && FirstIndex(xs, y) == 1 + FirstIndex(xs[1..], y)
  {
  }

  lemma DistinctFromProps(xs: seq<string>, seen: set<string>)
    ensures forall x :: x in DistinctFrom(xs, seen) <==> x in xs && x !in seen
    ensures forall i, j :: 0 <= i < j < |DistinctFrom(xs, seen)| ==>
              DistinctFrom(xs, seen)[i] != DistinctFrom(xs, seen)[j]
    ensures InFirstOrder(xs, DistinctFrom(xs, seen))
  {
    DistinctFromMembers(xs, seen);
    DistinctFromOrder(xs, seen);
  }

  /** The distinct values hold every value once, nothing else, in order of first appearance. */
  lemma DistinctProps(xs: seq<string>)
    ensures forall x :: x in Distinct(xs) <==> x in xs
    ensures forall i, j :: 0 <= i < j < |Distinct(xs)| ==> Distinct(xs)[i] != Distinct(xs)[j]
    ensures forall i, j :: 0 <= i < j < |Distinct(xs)| ==>
              FirstIndex(xs, Distinct(xs)[i]) < FirstIndex(xs, Distinct(xs)[j])
  {
    DistinctFromProps(xs, {});
  }
}

=== FILE: auth_context.dfy ===
/** The session bridge of the client (`AuthProvider`): it turns identity-provider notifications
    into the pair `currentUser` / `jwtToken`, keeps the backend token in `localStorage` under
    `'jwtToken'`, holds back the children until the first notification, and offers `login` and
    `register`. Provider and backend calls are not modelled; their outcomes are inputs. */
module AuthContext {
  import opened Js
  import WebStorage

  /** The `localStorage` key of the backend session token. */
  const TokenKey := "jwtToken"

  const CredentialsRequired := "Email and password are required"
  const PasswordTooShort := "Password should be at least 6 characters"

  /** The identity provider's user object; an email, name or photo it does not have is `null` (`None`). */
  datatype ProviderUser = ProviderUser(
    uid: string,
    email: Option<string>,
    displayName: Option<string>,
    photoURL: Option<string>)

  /** The `currentUser` record. A notification fills `photo`; `register` fills `photoURL` instead. */
  datatype CurrentUser = CurrentUser(
    uid: string,
    email: Option<string>,
    displayName: Option<string>,
    photo: Option<string>,
    photoURL: Option<string>)

  /** The body of `POST /auth/login`, the exchange of a provider ID token for a backend token. */
  datatype ExchangeRequest = ExchangeRequest(firebaseToken: string, name: Option<string>, photo: Option<string>)

  /** A thrown error: the provider's error code when there is one, and the message. */
  datatype AuthError = AuthError(code: Option<string>, message: string)

  /** How a provider call ended: with a value, or rejected with an error. */
  datatype Outcome<T> = Resolved(value: T) | Rejected(error: AuthError)

  /** A bridge operation that may throw before reaching the provider: `Refused` means the provider
      was never contacted, `Called` carries what the provider answered. */
  datatype Call<T> = Refused(error: AuthError) | Called(outcome: Outcome<T>)

  /** The session as the rest of the client sees it. */
  datatype Phase = Unresolved | Anonymous | Authenticated

  /** The record a successful exchange stores: identity and email from the provider, the display
      name always present and `''` when the provider has none, the photo in `photo`. */
  function SessionUser(u: ProviderUser): (c: CurrentUser)
    ensures c.uid == u.uid && c.email == u.email && c.photo == u.photoURL && c.photoURL.None?
    ensures c.displayName.Some?
    ensures Truthy(u.displayName) ==> c.displayName == u.displayName
    ensures !Truthy(u.displayName) ==> c.displayName == Some("")
  {
    CurrentUser(u.uid, u.email, Some(OrElse(u.displayName, "")), u.photoURL, None)
  }

  /** The checks `login` runs before contacting the provider. */
  function LoginCheck(email: string, password: string): (r: Option<AuthError>)
    ensures r.Some? <==> email == "" || password == ""
    ensures r.Some? ==> r.value.code.None? && r.value.message == CredentialsRequired
  {
    if email == "" || password == "" then Some(AuthError(None, CredentialsRequired)) else None
  }

  /** The checks `register` runs before contacting the provider: both fields present, then the
      password at least 6 characters long. */
  function RegisterCheck(email: string, password: string): (r: Option<AuthError>)
    ensures r.None? <==> email != "" && |password| >= 6
    ensures (email == "" || password == "") ==> r == Some(AuthError(None, CredentialsRequired))
    ensures email != "" && 0 < |password| < 6 ==> r == Some(AuthError(None, PasswordTooShort))
  {
    if email == "" || password == "" then Some(AuthError(None, CredentialsRequired))
    else if |password| < 6 then Some(AuthError(None, PasswordTooShort))
    else None
  }

  /** `login(email, password)`: throws before the provider when a field is empty, otherwise
      passes the provider's answer through. */
  function Login(email: string, password: string, provider: Outcome<ProviderUser>): (r: Call<ProviderUser>)
    ensures r.Refused? <==> email == "" || password == ""
    ensures r.Refused? ==> r.error == AuthError(None, CredentialsRequired)
    ensures r.Called? ==> r.outcome == provider
  {
    match LoginCheck(email, password)
    case Some(e) => Refused(e)
    case None => Called(provider)
  }

  /** `getToken()`: `null` without a signed-in provider user, otherwise the provider's fresh ID token. */
  function GetToken(signedIn: Option<ProviderUser>, idToken: Outcome<string>): (r: Option<Outcome<string>>)
    ensures r.None? <==> signedIn.None?
    ensures r.Some? ==> r.value == idToken
  {
    if signedIn.None? then None else Some(idToken)
  }

  class SessionBridge {
    var currentUser: Option<CurrentUser>
    var jwtToken: Option<string>
    var loading: bool
    /** The browser's `localStorage`. */
    const local: WebStorage.Storage

    /** The provider's mount: no user, no token, still loading. */
    constructor (local: WebStorage.Storage)
      ensures this.local == local
      ensures currentUser == None && jwtToken == None && loading
      ensures CurrentPhase() == Unresolved && !RendersChildren()
    {
      this.local := local;
      currentUser := None;
      jwtToken := None;
      loading := true;
    }

    /** `{!loading && children}`: the children are rendered once the first notification is handled. */
    predicate RendersChildren()
      reads this
      ensures RendersChildren() <==> CurrentPhase() != Unresolved
    {
      !loading
    }

    /** The phase the rest of the client sees: unresolved while loading, then signed in exactly
        when a user is present. */
    function CurrentPhase(): (p: Phase)
      reads this
      ensures p == Unresolved <==> loading
      ensures p == Authenticated <==> !loading && currentUser.Some?
    {
      if loading then Unresolved
      else if currentUser.Some? then Authenticated
      else Anonymous
    }

    /** A user is present exactly when a token is present, and the token is the one stored; so a
        user is present exactly when the storage holds a token. */
    predicate Agreement()
      reads this, local
      ensures Agreement() ==> (currentUser.Some? <==> local.GetItem(TokenKey).Some?)
    {
      && (currentUser.Some? <==> jwtToken.Some?)
      && (jwtToken.Some? <==> TokenKey in local.items)
      && (jwtToken.Some? ==> local.items[TokenKey] == jwtToken.value)
    }

    /** A signed-in notification. `idToken` is what `getIdToken` gave (None: it threw), `exchange`
        the token in the backend's answer (None: the POST threw). Returns the exchange request
        sent, if any. An empty backend token counts as present for `Agreement`, but it is not
        truthy: the user is then signed in while the stored token is one the interceptor and the
        pages treat as missing. */
    method OnSignedIn(user: ProviderUser, idToken: Option<string>, exchange: Option<string>)
      returns (sent: Option<ExchangeRequest>)
      modifies this, local
      ensures sent == if idToken.Some? then Some(ExchangeRequest(idToken.value, user.displayName, user.photoURL)) else None
      ensures idToken.Some? && exchange.Some? ==>
        && jwtToken == exchange
        && local.items == old(local.items)[TokenKey := exchange.value]
        && currentUser == Some(SessionUser(user))
        && CurrentPhase() == Authenticated
      ensures idToken.None? || exchange.None? ==>
        && currentUser == None && jwtToken == None
        && local.items == old(local.items) - {TokenKey}
        && CurrentPhase() == Anonymous
      ensures !loading && RendersChildren() && Agreement()
      ensures currentUser.Some? && !Truthy(local.GetItem(TokenKey)) <==> idToken.Some? && exchange == Some("")
    {
      if idToken.Some? {
        sent := Some(ExchangeRequest(idToken.value, user.displayName, user.photoURL));
      } else {
        sent := None;
      }
      if idToken.Some? && exchange.Some? {
        jwtToken := exchange;
        local.SetItem(TokenKey, exchange.value);
        currentUser := Some(SessionUser(user));
      } else {
        currentUser := None;
        jwtToken := None;
        local.RemoveItem(TokenKey);
      }
      loading := false;
    }

    /** A signed-out notification: user, token and stored key are cleared whatever the state was. */
    method OnSignedOut()
      modifies this, local
      ensures currentUser == None && jwtToken == None
      ensures local.items == old(local.items) - {TokenKey}
      ensures !loading && RendersChildren() && Agreement() && CurrentPhase() == Anonymous
    {
      currentUser := None;
      jwtToken := None;
      local.RemoveItem(TokenKey);
      loading := false;
    }

    /** `register(email, password, name, photoURL)`. `created` is how the provider's account creation,
        profile update and token refresh ended, with the user as the provider then reports it.
        On success only `currentUser` changes: the token and the stored key are left alone, so a
        registration from a signed-out session leaves a user without a token. */
    method Register(email: string, password: string, name: string, photoURL: string, created: Outcome<ProviderUser>)
      returns (r: Call<ProviderUser>)
      modifies this`currentUser
      ensures RegisterCheck(email, password).Some? ==>
        r == Refused(RegisterCheck(email, password).value) && currentUser == old(currentUser)
      ensures RegisterCheck(email, password).None? ==> r == Called(created)
      ensures r.Called? && created.Resolved? ==>
        currentUser == Some(CurrentUser(created.value.uid, created.value.email, created.value.displayName, None, Some(photoURL)))
      ensures r.Called? && created.Rejected? ==> currentUser == old(currentUser)
      ensures r.Called? && created.Resolved? && old(jwtToken).None? ==> !Agreement()
    {
      var check := RegisterCheck(email, password);
      if check.Some? {
        return Refused(check.value);
      }
      r := Called(created);
      if created.Resolved? {
        var u := created.value;
        currentUser := Some(CurrentUser(u.uid, u.email, u.displayName, None, Some(photoURL)));
      }
    }
  }
}

=== FILE: edit_article.dfy ===
/** The Edit Article page: the access checks before the form is filled, the tags shown as
    `', '`-joined text, and the save that splits them back. */
module EditArticle {
  import opened Js
  import opened Articles
  import Tags
  import AuthContext

  const MustLogin := "You must be logged in to edit articles"
  const NotFound := "Article not found"
  const NoPermission := "You do not have permission to edit this article"
  const LoadFailed := "Failed to load article"
  const Updated := "Article updated!"
  const UpdateFailed := "Failed to update article"

  /** The body of `PUT /articles/:id`. */
  datatype ArticleUpdate = ArticleUpdate(title: string, content: string, category: Option<string>, tags: seq<string>)

  /** The form text of an article's tags: joined with `', '`, `''` when missing. */
  function TagText(tags: Option<seq<string>>): (s: string)
    ensures tags.None? ==> s == ""
    ensures tags.Some? ==> s == Tags.FormatTags(tags.value)
  {
    if tags.Some? then Tags.FormatTags(tags.value) else ""
  }

  /** The negation of `article.author_email !== currentUser.email`, the user's email being a
      string or `null`: an article whose author email is missing can be edited by nobody, one
      whose author email is `null` by a user without an email, and one with an author email by
      the user with that same email. */
  predicate MayEdit(a: Article, user: AuthContext.CurrentUser)
    ensures a.authorEmail.Undefined? ==> !MayEdit(a, user)
    ensures a.authorEmail.Null? ==> (MayEdit(a, user) <==> user.email.None?)
    ensures a.authorEmail.Text? ==> (MayEdit(a, user) <==> user.email == Some(a.authorEmail.value))
  {
    a.authorEmail == FromNullable(user.email)
  }

  /** Loading an article's tags into the form and saving them gives the same list back, when the
      tags are plain (non-empty, trimmed, no comma); missing tags are saved as `[]`. */
  lemma LoadSaveRoundTrip(tags: Option<seq<string>>)
    requires tags.Some? ==> forall i :: 0 <= i < |tags.value| ==> Tags.IsPlainTag(tags.value[i])
    ensures Tags.SplitTags(TagText(tags)) == tags.GetOr([])
  {
    if tags.Some? {
      Tags.FormatSplitRoundTrip(tags.value);
    }
  }

  class EditArticleForm {
    var title: string
    var content: string
    var category: Option<string>
    var tags: string

    constructor ()
      ensures title == "" && content == "" && category == Some("") && tags == ""
    {
      title := "";
      content := "";
      category := Some("");
      tags := "";
    }

    /** The effect of loading the page. `reply` is the `article` field of the reply (outer None:
        the request failed; inner None: no article). Returns where the page navigates and the
        error toast. Without a user nothing is fetched; a missing article, another author's article
        or a failed request leave the form as it was. */
    method FetchArticle(user: Option<AuthContext.CurrentUser>, reply: Option<Option<Article>>)
      returns (navigateTo: Option<string>, toast: Option<string>, fetched: bool)
      modifies this
      ensures fetched <==> user.Some?
      ensures user.None? ==> navigateTo == Some("/login") && toast == Some(MustLogin)
      ensures user.Some? && reply.None? ==> navigateTo == Some("/") && toast == Some(LoadFailed)
      ensures user.Some? && reply == Some(None) ==> navigateTo == Some("/") && toast == Some(NotFound)
      ensures user.Some? && reply.Some? && reply.value.Some? && !MayEdit(reply.value.value, user.value) ==>
        navigateTo == Some("/") && toast == Some(NoPermission)
      ensures !(user.Some? && reply.Some? && reply.value.Some? && MayEdit(reply.value.value, user.value)) ==>
        title == old(title) && content == old(content) && category == old(category) && tags == old(tags)
      ensures user.Some? && reply.Some? && reply.value.Some? && MayEdit(reply.value.value, user.value) ==>
        && navigateTo == None && toast == None
        && title == reply.value.value.title && content == reply.value.value.content
        && category == reply.value.value.category && tags == TagText(reply.value.value.tags)
    {
      fetched := user.Some?;
      if user.None? {
        return Some("/login"), Some(MustLogin), false;
      }
      match reply
      case None =>
        return Some("/"), Some(LoadFailed), true;
      case Some(None) =>
        return Some("/"), Some(NotFound), true;
      case Some(Some(a)) =>
        if !MayEdit(a, user.value) {
          return Some("/"), Some(NoPermission), true;
        }
        title := a.title;
        content := a.content;
        category := a.category;
        tags := TagText(a.tags);
        navigateTo, toast := None, None;
    }

    /** `handleSubmit`'s body: the form with the tag text split on commas and trimmed, empty pieces
        kept, and `''` read as no tags. */
    function Update(): (u: ArticleUpdate)
      reads this
      ensures u.title == title && u.content == content && u.category == category
      ensures tags == "" ==> u.tags == []
      ensures tags != "" ==> |u.tags| == Count(tags, ',') + 1
    ensures u.tags == Tags.SplitTags(tags)
    {
      ArticleUpdate(title, content, category, Tags.SplitTags(tags))
    }

    /** `handleSubmit`. `ok` says whether the PUT succeeded; only then does the page go to My Articles. */
    method HandleSubmit(ok: bool) returns (request: ArticleUpdate, toast: string, navigateTo: Option<string>)
      ensures request == Update()
      ensures ok ==> toast == Updated && navigateTo == Some("/my-articles")
      ensures !ok ==> toast == UpdateFailed && navigateTo == None
    {
      request := Update();
      if ok {
        toast, navigateTo := Updated, Some("/my-articles");
      } else {
        toast, navigateTo := UpdateFailed, None;
      }
    }
  }
}

=== FILE: faq_section.dfy ===
/** The FAQ accordion: at most one answer open, a click on a question toggling it. */
module FaqSection {
  import opened Js
  import SingleOpen

  /** The number of questions in the list. */
  const FaqCount := 5

  class FaqList {
    /** The index of the open answer; `null` when none is open. */
    var openIndex: Option<nat>

    /** Initially no answer is open. */
    constructor ()
      ensures openIndex == None
    {
      openIndex := None;
    }

    /** `toggleIndex(index)` for one of the listed questions: closes `index` when it is the open answer and opens it otherwise,
        closing any other. */
    method ToggleIndex(index: nat)
      requires index < FaqCount
      modifies this
      ensures openIndex == SingleOpen.Toggle(old(openIndex), index)
      ensures openIndex == None <==> old(openIndex) == Some(index)
      ensures old(openIndex).Some? && old(openIndex) != Some(index) ==> openIndex == Some(index)
      ensures openIndex.Some? ==> openIndex.value < FaqCount
    {
      openIndex := SingleOpen.Toggle(openIndex, index);
    }
  }
}

=== FILE: home.dfy ===
/** The Home page: the six newest articles, sorted in place newest first, their excerpts, and
    the category links into the All Articles page. */
module Home {
  import opened Js
  import opened Articles
  import AllArticles

  const FeaturedCount := 6
  const ExcerptLength := 100

  /** Ordered by `createdAt`, newest first. */
  ghost predicate NewestFirst(s: seq<Article>) {
    forall k, l :: 0 <= k < l < |s| ==> s[k].createdAt >= s[l].createdAt
  }

  /** `arr.sort((a, b) => new Date(b.createdAt) - new Date(a.createdAt))`: sorts the array in
      place, newest first, keeping every element. */
  method SortNewestFirst(a: array<Article>)
    modifies a
    ensures NewestFirst(a[..])
    ensures multiset(a[..]) == multiset(old(a[..]))
  {
    var i := 0;
    while i < a.Length
      invariant 0 <= i <= a.Length
      invariant NewestFirst(a[..i])
      invariant multiset(a[..]) == multiset(old(a[..]))
    {
      SinkNewest(a, i);
      i := i + 1;
    }
    assert a[..] == a[..a.Length];
  }

  /** One step of the sort: moves `a[i]` left past every older article of the sorted `a[..i]`. */
  method SinkNewest(a: array<Article>, i: nat)
    requires i < a.Length && NewestFirst(a[..i])
    modifies a
    ensures NewestFirst(a[..i + 1])
    ensures multiset(a[..]) == multiset(old(a[..]))
  {
    var j := i;
    while j > 0 && a[j - 1].createdAt < a[j].createdAt
      invariant 0 <= j <= i
      invariant forall k, l :: 0 <= k < l <= i && k != j && l != j ==> a[k].createdAt >= a[l].createdAt
      invariant forall l :: j < l <= i ==> a[j].createdAt > a[l].createdAt
      invariant multiset(a[..]) == multiset(old(a[..]))
    {
      Swap(a, j - 1, j);
      j := j - 1;
    }
  }

  /** Exchanges two elements of the array. */
  method Swap(a: array<Article>, i: nat, j: nat)
    requires i < a.Length && j < a.Length
    modifies a
    ensures a[..] == old(a[..])[i := old(a[j])][j := old(a[i])]
    ensures multiset(a[..]) == multiset(old(a[..]))
  {
    a[i], a[j] := a[j], a[i];
  }

  /** A newest-first list cut anywhere: nothing after the cut is newer than anything before it. */
  lemma PrefixIsNewest(s: seq<Article>, n: nat)
    requires NewestFirst(s) && n <= |s|
    ensures NewestFirst(s[..n])
    ensures forall f, r :: f in s[..n] && r in s[n..] ==> f.createdAt >= r.createdAt
  {
    forall f, r | f in s[..n] && r in s[n..] ensures f.createdAt >= r.createdAt {
      var k :| 0 <= k < n && s[k] == f;
      var l :| 0 <= l < |s[n..]| && s[n..][l] == r;
      assert s[n + l] == r;
    }
  }

  /** `content.length > 100 ? content.slice(0, 100) + '...' : content`. */
  function Excerpt(content: string): (e: string)
    ensures |e| <= ExcerptLength + 3
    ensures |content| <= ExcerptLength ==> e == content
    ensures |content| > ExcerptLength ==> |e| == ExcerptLength + 3 && e[..ExcerptLength] == content[..ExcerptLength] && e[ExcerptLength..] == "..."
  {
    if |content| > ExcerptLength then content[..ExcerptLength] + "..." else content
  }

  /** The link of a category chip, for a given `encodeURIComponent`. */
  function CategoryLink(cat: string, encode: string -> string): (p: string)
    ensures StartsWith(p, AllArticles.CategoryQuery)
  {
    AllArticles.CategoryQuery + encode(cat)
  }

  /** A chip leads to the same page the category bar of All Articles leads to, and that page
      selects the chip's category, whenever decoding undoes encoding, the encoding holds no `&`
      and the name `category` decodes to itself. */
  lemma {:induction false} CategoryLinkSelects(cat: string, encode: string -> string, decode: string -> string)
    requires decode(encode(cat)) == cat && '&' !in encode(cat)
    requires decode(AllArticles.CategoryKey) == AllArticles.CategoryKey
    ensures cat != "" ==> CategoryLink(cat, encode) == AllArticles.CategoryPath(cat, encode)
    ensures AllArticles.SelectedCategory(AllArticles.QueryOf(AllArticles.SearchOf(CategoryLink(cat, encode)), decode)) == cat
  {
    AllArticles.QueryReadsBack(encode(cat), decode);
  }

  class HomePage {
    var featured: seq<Article>
    var categories: seq<string>

    constructor ()
      ensures featured == [] && categories == []
    {
      featured := [];
      categories := [];
    }

    /** `fetchData`. `reply` is the array of `GET /articles` (None: that request failed, and then
        the categories are not requested) and `categoryReply` the body of `GET /articles/categories`
        (None: it failed). The reply array is sorted in place and its first six articles are featured. */
    method FetchData(reply: Option<array<Article>>, categoryReply: Option<seq<string>>)
      modifies this, if reply.Some? then {reply.value} else {}
      ensures reply.None? ==> featured == old(featured) && categories == old(categories)
      ensures reply.Some? ==>
        && NewestFirst(reply.value[..])
        && multiset(reply.value[..]) == multiset(old(reply.value[..]))
        && featured == reply.value[..if reply.value.Length < FeaturedCount then reply.value.Length else FeaturedCount]
        && categories == (if categoryReply.Some? then categoryReply.value else old(categories))
      ensures reply.Some? ==>
        && |featured| <= FeaturedCount
        && NewestFirst(featured)
        && multiset(featured) <= multiset(old(reply.value[..]))
        && forall f, r :: f in featured && r in reply.value[|featured|..] ==> f.createdAt >= r.createdAt
    {
      if reply.None? {
        return;
      }
      var a := reply.value;
      SortNewestFirst(a);
      var n := if a.Length < FeaturedCount then a.Length else FeaturedCount;
      featured := a[..n];
      PrefixIsNewest(a[..], n);
      assert a[..] == a[..n] + a[n..];
      if categoryReply.Some? {
        categories := categoryReply.value;
      }
    }
  }
}

=== FILE: js.dfy ===
/** JavaScript values and string built-ins the client relies on: `null`-able values,
    truthiness, `String.prototype.trim`, `split` on one character and `Array.prototype.join`.
    Strings are sequences of characters. */
module Js {

  /** A value that may be `null` or `undefined` (None) or present (Some). */
  datatype Option<T> = None | Some(value: T) {
    function GetOr(default: T): T {
      match this
      case Some(v) => v
      case None => default
    }
  }

  /** JavaScript truthiness of an optional string: present and not the empty string. */
  predicate Truthy(s: Option<string>) {
    s.Some? && s.value != ""
  }

  /** `s || fallback` for an optional string. */
  function OrElse(s: Option<string>, fallback: string): string {
    if Truthy(s) then s.value else fallback
  }

  /** The LineTerminator code points of ECMAScript (what `.` in a regular expression does not match). */
  predicate IsLineTerminator(c: char) {
    c == '\n' || c == '\r' || c == '\U{2028}' || c == '\U{2029}'
  }

  /** The WhiteSpace and LineTerminator code points that `trim` removes. */
  predicate IsWhiteSpace(c: char) {
    || IsLineTerminator(c)
    || c == '\t' || c == '\U{000B}' || c == '\U{000C}' || c == ' ' || c == '\U{00A0}'
    || c == '\U{1680}' || ('\U{2000}' <= c <= '\U{200A}')
    || c == '\U{202F}' || c == '\U{205F}' || c == '\U{3000}' || c == '\U{FEFF}'
  }

  function TrimStart(s: string): string {
    if |s| > 0 && IsWhiteSpace(s[0]) then TrimStart(s[1..]) else s
  }

  function TrimEnd(s: string): string {
    if |s| > 0 && IsWhiteSpace(s[|s| - 1]) then TrimEnd(s[..|s| - 1]) else s
  }

  /** `s.trim()`. */
  function Trim(s: string): string {
    TrimEnd(TrimStart(s))
  }

  /** A string that `trim` leaves as it is: it neither starts nor ends with white space. */
  predicate IsTrimmed(s: string) {
    |s| > 0 ==> !IsWhiteSpace(s[0]) && !IsWhiteSpace(s[|s| - 1])
  }

  /** `!s.trim()`: the string is empty once trimmed. */
  predicate IsBlank(s: string) {
    Trim(s) == ""
  }

  predicate StartsWith(s: string, prefix: string) {
    |prefix| <= |s| && s[..|prefix|] == prefix
  }

  /** `s.split(d)` for a one-character separator: always at least one piece. */
  function Split(s: string, d: char): (r: seq<string>)
    ensures |r| >= 1
  {
    if s == [] then [""]
    else if s[0] == d then [""] + Split(s[1..], d)
    else var t := Split(s[1..], d); [[s[0]] + t[0]] + t[1..]
  }

  /** `xs.join(sep)`. */
  function Join(xs: seq<string>, sep: string): string {
    if xs == [] then ""
    else if |xs| == 1 then xs[0]
    else xs[0] + sep + Join(xs[1..], sep)
  }

  /** `xs.map(x => x.trim())`. */
  function MapTrim(xs: seq<string>): (r: seq<string>)
    ensures |r| == |xs|
    ensures forall i :: 0 <= i < |xs| ==> r[i] == Trim(xs[i])
  {
    if xs == [] then [] else [Trim(xs[0])] + MapTrim(xs[1..])
  }

  /** `xs.filter(Boolean)` on strings: drops the empty ones, keeps the order. */
  function FilterNonEmpty(xs: seq<string>): seq<string> {
    if xs == [] then []
    else if xs[0] == "" then FilterNonEmpty(xs[1..])
    else [xs[0]] + FilterNonEmpty(xs[1..])
  }

  function Count(s: string, c: char): nat {
    if s == [] then 0 else (if s[0] == c then 1 else 0) + Count(s[1..], c)
  }

  // ---- trim

  lemma {:induction false} TrimStartShape(s: string)
    ensures |TrimStart(s)| <= |s| && TrimStart(s) == s[|s| - |TrimStart(s)|..]
    ensures forall i :: 0 <= i < |s| - |TrimStart(s)| ==> IsWhiteSpace(s[i])
    ensures TrimStart(s) != "" ==> !IsWhiteSpace(TrimStart(s)[0])
    ensures (forall i :: 0 <= i < |s| ==> IsWhiteSpace(s[i])) ==> TrimStart(s) == ""
  {
    if |s| > 0 && IsWhiteSpace(s[0]) {
      TrimStartShape(s[1..]);
    }
  }

  lemma {:induction false} TrimEndShape(s: string)
    ensures |TrimEnd(s)| <= |s| && TrimEnd(s) == s[..|TrimEnd(s)|]
    ensures forall i :: |TrimEnd(s)| <= i < |s| ==> IsWhiteSpace(s[i])
    ensures TrimEnd(s) != "" ==> !IsWhiteSpace(TrimEnd(s)[|TrimEnd(s)| - 1])
  {
    if |s| > 0 && IsWhiteSpace(s[|s| - 1]) {
      TrimEndShape(s[..|s| - 1]);
    }
  }

  /** What `trim` returns neither starts nor ends with white space. */
  lemma TrimIsTrimmed(s: string)
    ensures IsTrimmed(Trim(s))
  {
    var u := TrimStart(s);
    TrimStartShape(s);
    TrimEndShape(u);
    if TrimEnd(u) != "" {
      assert TrimEnd(u)[0] == u[0];
    }
  }

  /** A string is blank exactly when every character of it is white space. */
  lemma BlankIffAllWhiteSpace(s: string)
    ensures IsBlank(s) <==> forall i :: 0 <= i < |s| ==> IsWhiteSpace(s[i])
  {
    TrimStartShape(s);
    TrimEndShape(TrimStart(s));
    if !forall i :: 0 <= i < |s| ==> IsWhiteSpace(s[i]) {
      var k :| 0 <= k < |s| && !IsWhiteSpace(s[k]);
      assert k >= |s| - |TrimStart(s)|;
      assert TrimStart(s) != "";
    }
  }

  /** Trimming a trimmed string changes nothing; leading white space in front of it is removed. */
  lemma {:induction false} TrimAfterWhiteSpace(p: string, t: string)
    requires forall i :: 0 <= i < |p| ==> IsWhiteSpace(p[i])
    requires IsTrimmed(t) && t != ""
    ensures Trim(p + t) == t
  {
    if p == [] {
      assert p + t == t;
      assert TrimStart(t) == t;
      assert TrimEnd(t) == t;
    } else {
      assert (p + t)[1..] == p[1..] + t;
      TrimAfterWhiteSpace(p[1..], t);
    }
  }

  // ---- split and join

  /** Splitting a string with no separator in it gives that string alone. */
  lemma {:induction false} SplitNoSeparator(s: string, d: char)
    requires d !in s
    ensures Split(s, d) == [s]
  {
    if s != [] {
      SplitNoSeparator(s[1..], d);
      assert [s[0]] + s[1..] == s;
    }
  }

  /** A separator after a separator-free prefix ends the first piece there. */
  lemma {:induction false} SplitAtSeparator(a: string, d: char, b: string)
    requires d !in a
    ensures Split(a + [d] + b, d) == [a] + Split(b, d)
  {
    if a == [] {
      assert a + [d] + b == [d] + b;
    } else {
      assert (a + [d] + b)[1..] == a[1..] + [d] + b;
      SplitAtSeparator(a[1..], d, b);
      assert [a[0]] + a[1..] == a;
    }
  }

  /** Occurrences add up over a concatenation. */
  lemma {:induction false} CountAppend(a: string, b: string, c: char)
    ensures Count(a + b, c) == Count(a, c) + Count(b, c)
  {
    if a != [] {
      assert (a + b)[0] == a[0] && (a + b)[1..] == a[1..] + b;
      CountAppend(a[1..], b, c);
    } else {
      assert a + b == b;
    }
  }

  /** Joining pieces free of `c` with a separator that holds `c` once puts one `c` between each
      two pieces and nowhere else. */
  lemma {:induction false} JoinCount(xs: seq<string>, sep: string, c: char)
    requires forall i :: 0 <= i < |xs| ==> c !in xs[i]
    requires Count(sep, c) == 1
    ensures xs != [] ==> Count(Join(xs, sep), c) == |xs| - 1
  {
    if |xs| == 1 {
      CountFree(xs[0], c);
    } else if |xs| > 1 {
      JoinCount(xs[1..], sep, c);
      CountFree(xs[0], c);
      CountAppend(xs[0], sep, c);
      CountAppend(xs[0] + sep, Join(xs[1..], sep), c);
    }
  }

  /** A string without `c` holds it zero times. */
  lemma {:induction false} CountFree(s: string, c: char)
    requires c !in s
    ensures Count(s, c) == 0
  {
    if s != [] {
      assert s[0] in s;
      assert forall x :: x in s[1..] ==> x in s;
      CountFree(s[1..], c);
    }
  }

  /** `split` yields one more piece than there are separators. */
  lemma {:induction false} SplitCount(s: string, d: char)
    ensures |Split(s, d)| == Count(s, d) + 1
  {
    if s != [] {
      SplitCount(s[1..], d);
    }
  }

  /** No piece of a split contains the separator. */
  lemma {:induction false} SplitPiecesFree(s: string, d: char)
    ensures forall i :: 0 <= i < |Split(s, d)| ==> d !in Split(s, d)[i]
  {
    if s != [] {
      SplitPiecesFree(s[1..], d);
    }
  }

  /** The result of `filter(Boolean)` holds exactly the non-empty strings, in order, and no empty one. */
  lemma {:induction false} FilterNonEmptyProps(xs: seq<string>)
    ensures forall i :: 0 <= i < |FilterNonEmpty(xs)| ==> FilterNonEmpty(xs)[i] != ""
    ensures forall x :: x in FilterNonEmpty(xs) <==> x in xs && x != ""
    ensures (forall i :: 0 <= i < |xs| ==> xs[i] != "") ==> FilterNonEmpty(xs) == xs
  {
    if xs != [] {
      FilterNonEmptyProps(xs[1..]);
    }
  }

  /** `filter(Boolean)` keeps the order and every non-empty string as often as it occurs. */
  lemma {:induction false} FilterNonEmptyOrder(xs: seq<string>)
    ensures IsSubsequence(FilterNonEmpty(xs), xs)
    ensures forall x :: x != "" ==> multiset(FilterNonEmpty(xs))[x] == multiset(xs)[x]
  {
    if xs != [] {
      FilterNonEmptyOrder(xs[1..]);
      assert xs == [xs[0]] + xs[1..];
      assert multiset(xs) == multiset{xs[0]} + multiset(xs[1..]);
      if xs[0] != "" {
        assert FilterNonEmpty(xs) == [xs[0]] + FilterNonEmpty(xs[1..]);
        assert FilterNonEmpty(xs)[1..] == FilterNonEmpty(xs[1..]);
      } else {
        SubsequenceSkip(FilterNonEmpty(xs[1..]), xs);
      }
    }
  }

  // ---- subsequences

  /** `r` is `xs` with some elements left out, the rest in their original order. */
  predicate IsSubsequence<T(==)>(r: seq<T>, xs: seq<T>) {
    if r == [] then true
    else if xs == [] then false
    else if r[0] == xs[0] then IsSubsequence(r[1..], xs[1..])
    else IsSubsequence(r, xs[1..])
  }

  /** A subsequence of the tail is a subsequence of the whole list. */
  lemma {:induction false} SubsequenceSkip<T>(r: seq<T>, xs: seq<T>)
    requires xs != [] && IsSubsequence(r, xs[1..])
    ensures IsSubsequence(r, xs)
    decreases |xs|, 0
  {
    if r != [] && r[0] == xs[0] {
      SubsequenceTail(r, xs[1..]);
    }
  }

  lemma {:induction false} SubsequenceTail<T>(r: seq<T>, xs: seq<T>)
    requires r != [] && IsSubsequence(r, xs)
    ensures IsSubsequence(r[1..], xs)
    decreases |xs|, 1
  {
    if r[0] != xs[0] {
      SubsequenceTail(r, xs[1..]);
      SubsequenceSkip(r[1..], xs);
    } else if r[1..] != [] {
      SubsequenceSkip(r[1..], xs);
    }
  }
}

=== FILE: login_page.dfy ===
/** The Login page: the provider-error-code table, the form checks, and what the email and
    Google sign-ins do with the `'reload_done'` flag in `sessionStorage`. */
module LoginPage {
  import opened Js
  import WebStorage
  import AuthContext

  const EmailRequired := "Email is required."
  const PasswordRequired := "Password is required."
  const GenericMessage := "Invalid Email or Password."

  /** The five provider error codes the page recognises. */
  const KnownCodes: seq<string> := [
    "auth/user-not-found", "auth/wrong-password", "auth/invalid-email",
    "auth/too-many-requests", "auth/network-request-failed"]

  /** `getFriendlyErrorMessage(code)`; `None` stands for an error without a code. Total, and never empty. */
  function FriendlyErrorMessage(code: Option<string>): (m: string)
    ensures m != ""
    ensures (code.None? || code.value !in KnownCodes) ==> m == GenericMessage
    ensures code.Some? && code.value in KnownCodes ==> m != GenericMessage
  {
    match code
    case None => GenericMessage
    case Some(c) =>
      if c == "auth/user-not-found" then "User not found. Please register first."
      else if c == "auth/wrong-password" then "Incorrect password."
      else if c == "auth/invalid-email" then "Invalid email format."
      else if c == "auth/too-many-requests" then "Too many failed attempts. Try again later."
      else if c == "auth/network-request-failed" then "Network error. Please check your connection."
      else GenericMessage
  }

  /** The five recognised codes give five different messages. */
  lemma FriendlyMessagesDistinct(i: nat, j: nat)
    requires i < j < |KnownCodes|
    ensures FriendlyErrorMessage(Some(KnownCodes[i])) != FriendlyErrorMessage(Some(KnownCodes[j]))
  {
  }

  /** `location.state?.from?.pathname || '/'`. */
  function RedirectTarget(fromPathname: Option<string>): (r: string)
    ensures Truthy(fromPathname) ==> r == fromPathname.value
    ensures !Truthy(fromPathname) ==> r == "/"
  {
    OrElse(fromPathname, "/")
  }

  /** The form checks in their order: a blank email, then a blank password. */
  function LoginGuard(email: string, password: string): (r: Option<string>)
    ensures r.None? <==> !IsBlank(email) && !IsBlank(password)
    ensures IsBlank(email) ==> r == Some(EmailRequired)
    ensures !IsBlank(email) && IsBlank(password) ==> r == Some(PasswordRequired)
  {
    if IsBlank(email) then Some(EmailRequired)
    else if IsBlank(password) then Some(PasswordRequired)
    else None
  }

  /** `handleSubmit`. `provider` is how the provider ended the sign-in. Returns the error toast, if any,
      and whether `login` was called. Only a successful sign-in sets the flag. */
  method HandleSubmit(email: string, password: string, session: WebStorage.Storage,
                      provider: AuthContext.Outcome<AuthContext.ProviderUser>)
    returns (toast: Option<string>, called: bool)
    modifies session
    ensures called <==> LoginGuard(email, password).None?
    ensures !called ==> toast == LoginGuard(email, password) && session.items == old(session.items)
    ensures called && provider.Resolved? ==>
      toast == None && session.items == old(session.items)[WebStorage.ReloadFlag := "true"]
    ensures called && provider.Rejected? ==>
      toast == Some(FriendlyErrorMessage(provider.error.code)) && session.items == old(session.items)
  {
    var guard := LoginGuard(email, password);
    if guard.Some? {
      return guard, false;
    }
    called := true;
    assert email != "" && password != "" by {
      assert Trim("") == "";
    }
    match AuthContext.Login(email, password, provider)
    case Refused(_) =>
      // `login`'s own check cannot fail once the page's checks have passed
      assert false;
    case Called(Resolved(_)) =>
      toast := None;
      session.SetItem(WebStorage.ReloadFlag, "true");
    case Called(Rejected(e)) =>
      toast := Some(FriendlyErrorMessage(e.code));
  }

  /** `handleGoogleLogin`. The toast is `getFriendlyErrorMessage(code) || error.message`; the table is
      never empty, so the provider's own message is never shown. */
  method HandleGoogleLogin(session: WebStorage.Storage, provider: AuthContext.Outcome<AuthContext.ProviderUser>)
    returns (toast: Option<string>)
    modifies session
    ensures provider.Resolved? ==> toast == None && session.items == old(session.items)[WebStorage.ReloadFlag := "true"]
    ensures provider.Rejected? ==>
      toast == Some(FriendlyErrorMessage(provider.error.code)) && session.items == old(session.items)
  {
    match provider
    case Resolved(_) =>
      toast := None;
      session.SetItem(WebStorage.ReloadFlag, "true");
    case Rejected(e) =>
      var friendly := FriendlyErrorMessage(e.code);
      toast := Some(if friendly != "" then friendly else e.message);
  }
}

=== FILE: my_articles.dfy ===
/** The My Articles page: loading the user's articles, the single expanded card, deleting an
    article, and the edit modal that shows the tags as text and parses them back. */
module MyArticles {
  import opened Js
  import opened Articles
  import Tags
  import SingleOpen

  const LoadFailed := "Failed to load your articles."
  const Deleted := "Article deleted!"
  const DeleteFailed := "Failed to delete article"
  const UpdateFailed := "Failed to update article"
  const UpdateDone := "Article updated successfully!"

  /** The edit modal's form; `tags` is the comma-separated text. */
  datatype EditForm = EditForm(title: string, content: string, category: string, tags: string)

  const EmptyForm := EditForm("", "", "", "")

  /** The body of `PUT /articles/:id` from the modal: the form with the tags parsed. */
  datatype ArticleUpdate = ArticleUpdate(title: string, content: string, category: string, tags: seq<string>)

  /** The body of `GET /articles/my`: an array of articles, or some other JSON value. */
  datatype ListReply = ArrayReply(items: seq<Article>) | OtherReply

  /** The list after a fetch of the user's articles that answered `reply` (None: it failed):
      the array, `[]` for anything that is not an array, the current list on failure. */
  function Refetched(current: seq<Article>, reply: Option<ListReply>): (r: seq<Article>)
    ensures reply == None ==> r == current
    ensures reply == Some(OtherReply) ==> r == []
    ensures reply.Some? && reply.value.ArrayReply? ==> r == reply.value.items
  {
    match reply
    case None => current
    case Some(ArrayReply(xs)) => xs
    case Some(OtherReply) => []
  }

  /** `prev.filter(a => a._id !== id)`: exactly the articles with that id are gone, the others stay
      in order. */
  function RemoveById(xs: seq<Article>, id: string): (r: seq<Article>)
    ensures IsSubsequence(r, xs)
    ensures forall a :: multiset(r)[a] == if a.id != id then multiset(xs)[a] else 0
    ensures forall i :: 0 <= i < |r| ==> r[i].id != id
  {
    var p := (a: Article) => a.id != id;
    KeepProps(xs, p);
    Keep(xs, p)
  }

  /** `openEditModal`'s form: title and content copied, category `''` when missing, tags joined
      with `', '` (`''` when missing). */
  function FormOf(a: Article): (f: EditForm)
    ensures f.title == a.title && f.content == a.content
    ensures f.category == OrElse(a.category, "")
    ensures a.tags.None? ==> f.tags == ""
    ensures a.tags.Some? ==> f.tags == Tags.FormatTags(a.tags.value)
  {
    EditForm(a.title, a.content, OrElse(a.category, ""),
             if a.tags.Some? then Tags.FormatTags(a.tags.value) else "")
  }

  /** `handleEditSubmit`'s body: the form with its tags parsed. */
  function UpdateOf(f: EditForm): (u: ArticleUpdate)
    ensures u.title == f.title && u.content == f.content && u.category == f.category
    ensures forall i :: 0 <= i < |u.tags| ==> Tags.IsPlainTag(u.tags[i])
    ensures u.tags == Tags.ParseTagList(f.tags)
  {
    ArticleUpdate(f.title, f.content, f.category, Tags.ParseTagList(f.tags))
  }

  /** Opening the modal and saving it unchanged sends the article's own tags back, provided they
      are plain (non-empty, trimmed, no comma); missing tags are sent as `[]`. */
  lemma EditRoundTrip(a: Article)
    requires a.tags.Some? ==> forall i :: 0 <= i < |a.tags.value| ==> Tags.IsPlainTag(a.tags.value[i])
    ensures UpdateOf(FormOf(a)).tags == a.tags.GetOr([])
  {
    if a.tags.Some? {
      Tags.FormatParseRoundTrip(a.tags.value);
    } else {
      assert Split("", ',') == [""];
      assert Trim("") == "";
    }
  }

  class MyArticlesPage {
    var articles: seq<Article>
    var loading: bool
    var expandedArticleId: Option<string>
    var editingArticle: Option<Article>
    var editForm: EditForm

    constructor ()
      ensures articles == [] && loading && expandedArticleId == None
      ensures editingArticle == None && editForm == EmptyForm
    {
      articles := [];
      loading := true;
      expandedArticleId := None;
      editingArticle := None;
      editForm := EmptyForm;
    }

    /** `fetchMyArticles`. Without a user the list is emptied and nothing is fetched. Returns
        whether the request was sent and the error toast. */
    method FetchMyArticles(hasUser: bool, reply: Option<ListReply>) returns (fetched: bool, toast: Option<string>)
      modifies this`articles, this`loading
      ensures fetched == hasUser
      ensures !hasUser ==> articles == [] && toast == None
      ensures hasUser ==> articles == Refetched(old(articles), reply)
      ensures hasUser ==> toast == if reply.None? then Some(LoadFailed) else None
      ensures !loading
    {
      if !hasUser {
        articles := [];
        loading := false;
        return false, None;
      }
      fetched := true;
      loading := true;
      articles := Refetched(articles, reply);
      toast := if reply.None? then Some(LoadFailed) else None;
      loading := false;
    }

    /** `toggleExpand(id)`: closes `id` when it is the expanded card, expands it otherwise. */
    method ToggleExpand(id: string)
      modifies this`expandedArticleId
      ensures expandedArticleId == SingleOpen.Toggle(old(expandedArticleId), id)
      ensures expandedArticleId == None <==> old(expandedArticleId) == Some(id)
    {
      expandedArticleId := SingleOpen.Toggle(expandedArticleId, id);
    }

    /** `handleDelete(id)`. `confirmed` is the answer to `window.confirm`, `deleted` whether the
        DELETE succeeded, `refetch` the reply of the fetch a failure triggers. The article is taken
        out of the list before the request; on failure the list is fetched again. Returns whether
        the DELETE was sent and the toasts in the order shown. */
    method HandleDelete(id: string, confirmed: bool, deleted: bool, refetch: Option<ListReply>)
      returns (requested: bool, toasts: seq<string>)
      modifies this`articles, this`expandedArticleId, this`loading
      ensures requested == confirmed
      ensures !confirmed ==> toasts == []
      ensures confirmed && deleted ==> toasts == [Deleted]
      ensures confirmed && !deleted ==> toasts == [DeleteFailed] + (if refetch.None? then [LoadFailed] else [])
      ensures !confirmed ==>
        articles == old(articles) && expandedArticleId == old(expandedArticleId) && loading == old(loading)
      ensures confirmed ==>
        expandedArticleId == (if old(expandedArticleId) == Some(id) then None else old(expandedArticleId))
      ensures confirmed && deleted ==> articles == RemoveById(old(articles), id) && loading == old(loading)
      ensures confirmed && !deleted ==> articles == Refetched(RemoveById(old(articles), id), refetch) && !loading
    {
      if !confirmed {
        return false, [];
      }
      requested := true;
      articles := RemoveById(articles, id);
      if expandedArticleId == Some(id) {
        expandedArticleId := None;
      }
      if deleted {
        toasts := [Deleted];
      } else {
        var _, more := FetchMyArticles(true, refetch);
        toasts := [DeleteFailed] + (if more.Some? then [more.value] else []);
      }
    }

    /** `openEditModal(article)`. */
    method OpenEditModal(a: Article)
      modifies this`editingArticle, this`editForm
      ensures editingArticle == Some(a) && editForm == FormOf(a)
    {
      editingArticle := Some(a);
      editForm := FormOf(a);
    }

    /** `closeEditModal`, once its animation delay has passed. */
    method CloseEditModal()
      modifies this`editingArticle, this`editForm
      ensures editingArticle == None && editForm == EmptyForm
    {
      editingArticle := None;
      editForm := EmptyForm;
    }

    /** `handleEditSubmit`. `ok` says whether the PUT succeeded. Without an article being edited,
        reading its `_id` throws and the failure toast is shown. On success the modal closes. */
    method HandleEditSubmit(ok: bool) returns (toast: string, request: Option<(string, ArticleUpdate)>)
      modifies this`editingArticle, this`editForm
      ensures old(editingArticle).None? ==>
        request == None && toast == UpdateFailed
        && editingArticle == old(editingArticle) && editForm == old(editForm)
      ensures old(editingArticle).Some? ==>
        request == Some((old(editingArticle).value.id, UpdateOf(old(editForm))))
      ensures old(editingArticle).Some? && ok ==>
        toast == UpdateDone && editingArticle == None && editForm == EmptyForm
      ensures old(editingArticle).Some? && !ok ==>
        toast == UpdateFailed && editingArticle == old(editingArticle) && editForm == old(editForm)
    {
      var update := UpdateOf(editForm);
      if editingArticle.None? {
        return UpdateFailed, None;
      }
      request := Some((editingArticle.value.id, update));
      if ok {
        toast := UpdateDone;
        CloseEditModal();
      } else {
        toast := UpdateFailed;
      }
    }
  }
}

=== FILE: post_article.dfy ===
/** The Post Article page: the form is shown to signed-in users only; a submission with a
    blank title or content is refused, otherwise the new article is built and posted. */
module PostArticle {
  import opened Js
  import Tags
  import AuthContext

  const Required := "Title and content are required."
  const Posted := "Article posted!"
  const PostFailed := "Failed to post article"
  const AfterPost := "/my-articles"

  /** The category choices of the form. */
  const CategoryOptions: seq<string> := ["Technology", "Health", "Education", "Science", "Lifestyle", "Others"]

  datatype Author = Author(email: Option<string>, displayName: string)

  /** The body of `POST /articles`. */
  datatype NewArticle = NewArticle(
    title: string, content: string, category: string, tags: seq<string>,
    thumbnail: string, date: string, author: Author)

  /** What a submission did: refused with a message, or sent the article and then showed a toast
      and possibly navigated. */
  datatype Submission =
    | Refused(message: string)
    | Sent(article: NewArticle, toast: string, navigateTo: Option<string>)

  const LoginPrompt := "Please login to post an article."

  /** What the page shows: a prompt, or the form with its category choices. */
  datatype Screen = Prompt(message: string) | Form(categories: seq<string>)

  /** With no user the page shows the login prompt instead of the form, so only a signed-in user
      can submit; the form offers the six fixed categories. */
  function ScreenOf(user: Option<AuthContext.CurrentUser>): (v: Screen)
    ensures v.Form? <==> user.Some?
    ensures v.Prompt? ==> v.message == LoginPrompt
    ensures v.Form? ==> v.categories == CategoryOptions && |v.categories| == 6
  {
    if user.None? then Prompt(LoginPrompt) else Form(CategoryOptions)
  }

  /** `author`: the user's email, and the display name or `'Anonymous'` when it is empty. */
  function AuthorOf(user: AuthContext.CurrentUser): (a: Author)
    ensures a.email == user.email
    ensures a.displayName != ""
    ensures Truthy(user.displayName) ==> a.displayName == user.displayName.value
    ensures !Truthy(user.displayName) ==> a.displayName == "Anonymous"
  {
    Author(user.email, OrElse(user.displayName, "Anonymous"))
  }

  /** `handleSubmit`, for the signed-in user the form is shown to. `ok` says whether the post succeeded.
      The article's tags are the tag text split on commas and trimmed, empty pieces kept. */
  function Submit(user: AuthContext.CurrentUser, title: string, content: string, category: string,
                  tags: string, thumbnail: string, date: string, ok: bool): (r: Submission)
    ensures r.Refused? <==> IsBlank(title) || IsBlank(content)
    ensures r.Refused? ==> r.message == Required
    ensures r.Sent? ==>
      && r.article.title == title && r.article.content == content && r.article.category == category
      && r.article.tags == Tags.SplitTags(tags) && r.article.author == AuthorOf(user)
      && r.article.thumbnail == thumbnail && r.article.date == date
    ensures r.Sent? ==> (r.navigateTo == Some(AfterPost) <==> ok)
    ensures r.Sent? && tags == "" ==> r.article.tags == []
    ensures r.Sent? && tags != "" ==> |r.article.tags| == Count(tags, ',') + 1
  {
    if IsBlank(title) || IsBlank(content) then Refused(Required)
    else
      var article := NewArticle(title, content, category, Tags.SplitTags(tags), thumbnail, date, AuthorOf(user));
      if ok then Sent(article, Posted, Some(AfterPost)) else Sent(article, PostFailed, None)
  }
}

=== FILE: register_page.dfy ===
/** The Register page: the password rule, the order of the form checks, and what a
    submission does with `register` and the `'reload_done'` flag in `sessionStorage`. */
module RegisterPage {
  import opened Js
  import WebStorage
  import AuthContext

  const NameRequired := "Name is required."
  const EmailRequired := "Email is required."
  const PasswordRule := "Password must be at least 6 characters and include both uppercase and lowercase letters."
  const FailurePrefix := "Registration failed: "

  predicate IsAsciiLower(c: char) { 'a' <= c <= 'z' }
  predicate IsAsciiUpper(c: char) { 'A' <= c <= 'Z' }

  /** The lookahead `(?=.*[a-z])` (upper: `(?=.*[A-Z])`) at the start: some letter of the class
      is reached from position 0 over characters that `.` matches. */
  predicate LookaheadFinds(pw: string, upper: bool) {
    exists i :: 0 <= i < |pw| && (if upper then IsAsciiUpper(pw[i]) else IsAsciiLower(pw[i]))
      && forall j :: 0 <= j < i ==> !IsLineTerminator(pw[j])
  }

  /** Where nothing stops `.`, a lookahead succeeds exactly when a letter of its class occurs. */
  lemma LookaheadPlain(pw: string, upper: bool)
    requires forall j :: 0 <= j < |pw| ==> !IsLineTerminator(pw[j])
    ensures LookaheadFinds(pw, upper) <==>
      exists i :: 0 <= i < |pw| && (if upper then IsAsciiUpper(pw[i]) else IsAsciiLower(pw[i]))
  {
    if exists i :: 0 <= i < |pw| && (if upper then IsAsciiUpper(pw[i]) else IsAsciiLower(pw[i])) {
      var i :| 0 <= i < |pw| && (if upper then IsAsciiUpper(pw[i]) else IsAsciiLower(pw[i]));
      assert forall j :: 0 <= j < i ==> !IsLineTerminator(pw[j]);
    }
  }

  /** `/^(?=.*[a-z])(?=.*[A-Z]).{6,}$/.test(pw)`, read as the regular expression it is: both
      lookaheads succeed at the start, and `.{6,}` covers the whole string. In plain words: at
      least six characters, a lower-case and an upper-case ASCII letter, and no line terminator. */
  predicate ValidatePassword(pw: string)
    ensures ValidatePassword(pw) <==>
      && |pw| >= 6
      && (exists i :: 0 <= i < |pw| && IsAsciiLower(pw[i]))
      && (exists i :: 0 <= i < |pw| && IsAsciiUpper(pw[i]))
      && (forall j :: 0 <= j < |pw| ==> !IsLineTerminator(pw[j]))
  {
    if forall j :: 0 <= j < |pw| ==> !IsLineTerminator(pw[j]) then
      LookaheadPlain(pw, false);
      LookaheadPlain(pw, true);
      LookaheadFinds(pw, false) && LookaheadFinds(pw, true) && |pw| >= 6
    else false
  }

  /** The rule as the form's hint puts it: `'Abcdef'` passes, `'abc12'` (five characters, no
      upper-case letter) does not. */
  lemma HintExamples()
    ensures ValidatePassword("Abcdef")
    ensures !ValidatePassword("abc12")
  {
    var pw := "Abcdef";
    assert IsAsciiUpper(pw[0]) && IsAsciiLower(pw[1]);
    assert forall j :: 0 <= j < |pw| ==> !IsLineTerminator(pw[j]);
    assert LookaheadFinds(pw, false) by {
      assert forall j :: 0 <= j < 1 ==> !IsLineTerminator(pw[j]);
    }
    assert LookaheadFinds(pw, true);
  }

  /** The form checks in their order: name, then email, then password; the first that fails
      gives its message. */
  function RegisterGuard(name: string, email: string, password: string): (r: Option<string>)
    ensures r.None? <==> !IsBlank(name) && !IsBlank(email) && ValidatePassword(password)
    ensures IsBlank(name) ==> r == Some(NameRequired)
    ensures !IsBlank(name) && IsBlank(email) ==> r == Some(EmailRequired)
    ensures !IsBlank(name) && !IsBlank(email) && !ValidatePassword(password) ==> r == Some(PasswordRule)
  {
    if IsBlank(name) then Some(NameRequired)
    else if IsBlank(email) then Some(EmailRequired)
    else if !ValidatePassword(password) then Some(PasswordRule)
    else None
  }

  /** Whatever passes the page's checks passes `register`'s own checks: its length error cannot
      be reached from this page. */
  lemma GuardImpliesRegisterCheck(name: string, email: string, password: string)
    requires RegisterGuard(name, email, password).None?
    ensures AuthContext.RegisterCheck(email, password).None?
  {
    assert Trim("") == "";
  }

  /** `handleSubmit`. `created` is how the provider ended the account creation. Returns the error
      toast shown, if any, and whether `register` was called. */
  method HandleSubmit(
    name: string, email: string, password: string, photoURL: string,
    auth: AuthContext.SessionBridge, session: WebStorage.Storage,
    created: AuthContext.Outcome<AuthContext.ProviderUser>)
    returns (toast: Option<string>, called: bool)
    modifies auth`currentUser, session
    ensures called <==> RegisterGuard(name, email, password).None?
    ensures !called ==>
      toast == RegisterGuard(name, email, password) && auth.currentUser == old(auth.currentUser)
      && session.items == old(session.items)
    ensures called && created.Resolved? ==>
      toast == None && session.items == old(session.items)[WebStorage.ReloadFlag := "true"]
      && auth.currentUser.Some? && auth.currentUser.value.uid == created.value.uid
    ensures called && created.Rejected? ==>
      toast == Some(FailurePrefix + created.error.message) && session.items == old(session.items)
      && auth.currentUser == old(auth.currentUser)
  {
    var guard := RegisterGuard(name, email, password);
    if guard.Some? {
      return guard, false;
    }
    called := true;
    GuardImpliesRegisterCheck(name, email, password);
    var r := auth.Register(email, password, name, photoURL, created);
    match r.outcome
    case Resolved(_) =>
      toast := None;
      session.SetItem(WebStorage.ReloadFlag, "true");
    case Rejected(e) =>
      toast := Some(FailurePrefix + e.message);
  }
}

=== FILE: single_open.dfy ===
/** The single-open rule shared by the FAQ list and the My Articles cards:
    `open === x ? null : x`. The state is the one open item, or none. */
module SingleOpen {
  import opened Js

  /** The next open item after a click on `x`. */
  function Toggle<T(==)>(open: Option<T>, x: T): (r: Option<T>)
    ensures r == Some(x) <==> open != Some(x)
    ensures r == None <==> open == Some(x)
  {
    if open == Some(x) then None else Some(x)
  }

  /** Clicking the same item twice restores the state when nothing else was open before. */
  lemma ToggleTwice<T>(open: Option<T>, x: T)
    requires open == None || open == Some(x)
    ensures Toggle(Toggle(open, x), x) == open
  {
  }

  /** ... but not when another item was open: the second click closes everything. */
  lemma ToggleTwiceFromOther<T>(y: T, x: T)
    requires y != x
    ensures Toggle(Toggle(Some(y), x), x) == None
  {
  }

  /** Opening `x` while a different `y` is open closes `y`. */
  lemma OpeningClosesOther<T>(y: T, x: T)
    requires y != x
    ensures Toggle(Some(y), x) == Some(x)
  {
  }
}

=== FILE: tags.dfy ===
/** The comma-separated tag text of the article forms. The list is shown joined with `', '`.
    Two parsers read it back: the edit modal of My Articles splits on `','`, trims and drops empty
    pieces; Post Article and Edit Article split and trim but keep empty pieces, and read the
    empty string as no tags. */
module Tags {
  import opened Js

  /** `tags.join(', ')`: no tags give `''`, one tag is the text itself, and tags without commas
      are separated by exactly one comma each. */
  function FormatTags(tags: seq<string>): (s: string)
    ensures tags == [] ==> s == ""
    ensures |tags| == 1 ==> s == tags[0]
    ensures tags != [] && (forall i :: 0 <= i < |tags| ==> ',' !in tags[i]) ==> Count(s, ',') == |tags| - 1
  {
    if forall i :: 0 <= i < |tags| ==> ',' !in tags[i] then
      assert Count(", ", ',') == 1;
      JoinCount(tags, ", ", ',');
      Join(tags, ", ")
    else Join(tags, ", ")
  }

  /** `tags.split(',').map(tag => tag.trim()).filter(Boolean)`: the tags are the non-empty trimmed
      pieces, in their order and as often as they occur, and every one is non-empty, trimmed and
      free of commas. */
  function ParseTagList(s: string): (tags: seq<string>)
    ensures forall i :: 0 <= i < |tags| ==> IsPlainTag(tags[i])
    ensures forall t :: t in tags <==> t != "" && t in MapTrim(Split(s, ','))
    ensures IsSubsequence(tags, MapTrim(Split(s, ',')))
    ensures forall t :: t != "" ==> multiset(tags)[t] == multiset(MapTrim(Split(s, ',')))[t]
  {
    var pieces := Split(s, ',');
    SplitPiecesFree(s, ',');
    var trimmed := MapTrim(pieces);
    assert forall i :: 0 <= i < |trimmed| ==> IsTrimmed(trimmed[i]) && ',' !in trimmed[i] by {
      forall i | 0 <= i < |trimmed| ensures IsTrimmed(trimmed[i]) && ',' !in trimmed[i] {
        TrimIsTrimmed(pieces[i]);
        TrimStartShape(pieces[i]);
        TrimEndShape(TrimStart(pieces[i]));
        assert trimmed[i] == TrimEnd(TrimStart(pieces[i]));
        assert forall c :: c in trimmed[i] ==> c in TrimStart(pieces[i]);
        assert forall c :: c in TrimStart(pieces[i]) ==> c in pieces[i];
      }
    }
    FilterKeepsPlain(trimmed);
    FilterNonEmptyProps(trimmed);
    FilterNonEmptyOrder(trimmed);
    FilterNonEmpty(trimmed)
  }

  /** `tags ? tags.split(',').map(tag => tag.trim()) : []`: `''` gives no tags, other text one
      trimmed tag per comma plus one, empty ones included, each the trimmed piece at its place. */
  function SplitTags(s: string): (tags: seq<string>)
    ensures s == "" ==> tags == []
    ensures s != "" ==> |tags| == Count(s, ',') + 1
    ensures forall i :: 0 <= i < |tags| ==> IsTrimmed(tags[i])
    ensures s != "" ==> |tags| == |Split(s, ',')| && forall i :: 0 <= i < |tags| ==> tags[i] == Trim(Split(s, ',')[i])
  {
    if s == "" then []
    else
      SplitCount(s, ',');
      assert forall i :: 0 <= i < |Split(s, ',')| ==> IsTrimmed(MapTrim(Split(s, ','))[i]) by {
        forall i | 0 <= i < |Split(s, ',')| ensures IsTrimmed(MapTrim(Split(s, ','))[i]) {
          TrimIsTrimmed(Split(s, ',')[i]);
        }
      }
      MapTrim(Split(s, ','))
  }

  /** A tag that survives a round trip through the text: non-empty, trimmed, without a comma. */
  predicate IsPlainTag(t: string) {
    t != "" && IsTrimmed(t) && ',' !in t
  }

  lemma {:induction false} FilterKeepsPlain(xs: seq<string>)
    requires forall i :: 0 <= i < |xs| ==> IsTrimmed(xs[i]) && ',' !in xs[i]
    ensures forall i :: 0 <= i < |FilterNonEmpty(xs)| ==> IsPlainTag(FilterNonEmpty(xs)[i])
  {
    if xs != [] {
      FilterKeepsPlain(xs[1..]);
    }
  }

  /** Splitting the joined text of plain tags, behind a prefix of at most white space, and trimming
      each piece gives the tags back. */
  lemma {:induction false} TrimSplitJoin(p: string, tags: seq<string>)
    requires forall i :: 0 <= i < |p| ==> IsWhiteSpace(p[i])
    requires tags != [] && forall i :: 0 <= i < |tags| ==> IsPlainTag(tags[i])
    ensures MapTrim(Split(p + FormatTags(tags), ',')) == tags
    decreases |tags|
  {
    assert ',' !in p by {
      assert !IsWhiteSpace(',');
    }
    var t := tags[0];
    TrimAfterWhiteSpace(p, t);
    if |tags| == 1 {
      assert FormatTags(tags) == t;
      SplitNoSeparator(p + t, ',');
    } else {
      var rest := FormatTags(tags[1..]);
      assert p + FormatTags(tags) == (p + t) + [','] + (" " + rest);
      SplitAtSeparator(p + t, ',', " " + rest);
      TrimSplitJoin(" ", tags[1..]);
      var pieces := [p + t] + Split(" " + rest, ',');
      assert pieces[1..] == Split(" " + rest, ',');
      assert [t] + tags[1..] == tags;
    }
  }

  /** My Articles: formatting plain tags and parsing the text back returns the same list. */
  lemma FormatParseRoundTrip(tags: seq<string>)
    requires forall i :: 0 <= i < |tags| ==> IsPlainTag(tags[i])
    ensures ParseTagList(FormatTags(tags)) == tags
  {
    if tags != [] {
      TrimSplitJoin("", tags);
      assert "" + FormatTags(tags) == FormatTags(tags);
      FilterNonEmptyProps(tags);
    }
  }

  /** Post Article / Edit Article: formatting plain tags and splitting the text back returns
      the same list; the empty list goes through the empty string. */
  lemma FormatSplitRoundTrip(tags: seq<string>)
    requires forall i :: 0 <= i < |tags| ==> IsPlainTag(tags[i])
    ensures SplitTags(FormatTags(tags)) == tags
  {
    if tags != [] {
      TrimSplitJoin("", tags);
      assert "" + FormatTags(tags) == FormatTags(tags);
      JoinStartsWithFirst(tags);
    }
  }

  lemma JoinStartsWithFirst(tags: seq<string>)
    requires tags != [] && tags[0] != ""
    ensures FormatTags(tags) != ""
  {
    if |tags| > 1 {
      assert FormatTags(tags)[0] == tags[0][0];
    }
  }

  /** The two parsers part on empty pieces: `'a,,b'` keeps an empty middle tag in one, not in the other. */
  lemma EmptyPieceExample()
    ensures SplitTags("a,,b") == ["a", "", "b"]
    ensures ParseTagList("a,,b") == ["a", "b"]
  {
    assert Split("a,,b", ',') == ["a", "", "b"] by {
      SplitNoSeparator("b", ',');
      assert "" + [','] + "b" == ",b";
      SplitAtSeparator("", ',', "b");
      assert "a" + [','] + ",b" == "a,,b";
      SplitAtSeparator("a", ',', ",b");
    }
    assert Trim("a") == "a" && Trim("b") == "b" && Trim("") == "";
    assert MapTrim(["a", "", "b"]) == ["a", "", "b"];
  }
}

=== FILE: top_contributors.dfy ===
/** The Top Contributors panel: the first six users of the backend's ranking, numbered from 1,
    with the comment count and a singular or plural label. */
module TopContributors {
  import opened Js

  const ShownCount := 6
  const NoContributors := "No contributors yet."

  datatype Contributor = Contributor(id: string, name: string, photoURL: string, commentCount: int)

  /** A list entry: rank, name, count and the word after the count. */
  datatype Row = Row(rank: nat, name: string, commentCount: int, word: string)

  /** What the panel shows: the empty message, or the entries. */
  datatype View = Empty(message: string) | Rows(rows: seq<Row>)

  /** `comment{count !== 1 && 's'}`: `false` renders as nothing, so the suffix appears unless the
      count is exactly 1. */
  function CommentWord(count: int): (w: string)
    ensures w == "comment" <==> count == 1
    ensures w == "comments" <==> count != 1
  {
    if count != 1 then "comments" else "comment"
  }

  /** The entries for `cs`, the first one ranked `rank`. */
  function RowsFrom(cs: seq<Contributor>, rank: nat): (rows: seq<Row>)
    ensures |rows| == |cs|
    ensures forall k :: 0 <= k < |cs| ==>
      rows[k] == Row(rank + k, cs[k].name, cs[k].commentCount, CommentWord(cs[k].commentCount))
  {
    if cs == [] then []
    else [Row(rank, cs[0].name, cs[0].commentCount, CommentWord(cs[0].commentCount))] + RowsFrom(cs[1..], rank + 1)
  }

  /** The panel for the fetched list: the empty message for an empty list, otherwise the first
      six contributors in order, ranked 1, 2, … */
  function Render(cs: seq<Contributor>): (v: View)
    ensures v.Empty? <==> cs == []
    ensures v.Empty? ==> v.message == NoContributors
    ensures v.Rows? ==> |v.rows| == (if |cs| < ShownCount then |cs| else ShownCount)
    ensures v.Rows? ==> forall k :: 0 <= k < |v.rows| ==>
      && v.rows[k].rank == k + 1
      && v.rows[k].name == cs[k].name && v.rows[k].commentCount == cs[k].commentCount
      && (v.rows[k].word == "comment" <==> cs[k].commentCount == 1)
  {
    if cs == [] then Empty(NoContributors)
    else Rows(RowsFrom(cs[..if |cs| < ShownCount then |cs| else ShownCount], 1))
  }

  class Panel {
    var contributors: seq<Contributor>

    constructor ()
      ensures contributors == []
    {
      contributors := [];
    }

    /** `fetchTopContributors`. `reply` is the fetched list (None: the request failed, and the
        list stays as it was). */
    method Fetch(reply: Option<seq<Contributor>>)
      modifies this
      ensures contributors == if reply.Some? then reply.value else old(contributors)
    {
      if reply.Some? {
        contributors := reply.value;
      }
    }
  }
}

=== FILE: web_storage.dfy ===
/** The browser's Web Storage areas (`localStorage`, `sessionStorage`): a string-to-string
    map that the client reads and writes key by key. */
module WebStorage {
  import opened Js

  /** The `sessionStorage` key the sign-in pages set before reloading and the app shell consumes. */
  const ReloadFlag := "reload_done"

  class Storage {
    var items: map<string, string>

    constructor ()
      ensures items == map[]
    {
      items := map[];
    }

    /** `getItem(key)`: the stored string, or `null` when the key is absent. */
    function GetItem(key: string): (r: Option<string>)
      reads this
      ensures r.Some? <==> key in items
      ensures r.Some? ==> r.value == items[key]
    {
      if key in items then Some(items[key]) else None
    }

    /** `setItem(key, value)`: the key holds the value, every other key is as it was. */
    method SetItem(key: string, value: string)
      modifies this
      ensures items == old(items)[key := value]
    {
      items := items[key := value];
    }

    /** `removeItem(key)`: the key is absent, every other key is as it was. */
    method RemoveItem(key: string)
      modifies this
      ensures items == old(items) - {key}
    {
      items := items - {key};
    }
  }
}
